=== FILE: README.md ===
# A Dafny model of a socket-based distributed file store

The system has four C programs. `Smain` is a coordinator, and clients talk to it. `Spdf` and `Stext` are storage nodes for `.pdf` and `.txt` files. `client24s` is an interactive client. The model covers what each program does with the bytes it receives and with the files it touches. Every program is modelled on its own terms, in its own module:

- `CStrings` holds the C library calls the programs rely on, written out as functions on byte sequences:
  - strlen on a NUL-terminated buffer (`CString`);
  - the truncation of `snprintf` into a 1024-byte buffer (`FitBuffer`);
  - `strtok`, `strcspn`, `strrchr`, `strstr`, `memmove` and `strncpy`;
  - the cutting of a stream into `fread`/`recv` sized pieces.
- `FileSystem` is a filesystem held as a value: a map from path to bytes, plus a set of directories. It also holds the operations the programs perform on it:
  - `make_dirs`, which all three servers share as identical copies and which is modelled once;
  - opening for writing with and without truncation, and opening for reading;
  - `remove`;
  - the two write loops. Spdf stops at the first short `fwrite`. Stext and the client ignore short writes.

  Whatever the operating system decides on its own comes from an `Env` oracle. This covers a `mkdir` refused with an error other than EEXIST, an `open` refused, the byte count of a short `fwrite`, and whether a `connect` succeeds.
- `Coordinator` models Smain's session:
  - the received commands in order;
  - the `ufile <name> <dir>` parse;
  - the classification by extension;
  - the in-buffer rewrite of the first `smain` in the directory, to `spdf` or `stext`;
  - the local store of `.c` files, which are copied from the working directory;
  - the sends of `send_to_server`.
- `PdfNode` models Spdf. Each connection carries one request in its first buffer: `dfile`, `rmfile`, or the upload header `<name>\n<dir>\n<first bytes>` followed by the rest of the file.
- `TextNode` models Stext. The directory comes in the first buffer and the name in the second. The file's bytes come in every later buffer.
- `Client` models client24s:
  - line recognition;
  - the upload header and upload sends;
  - the download request, the local file name, and the write of what comes back.
- `Interop` records where the client and the coordinator disagree about the protocol.

Where the code does not do what its commands suggest, the model follows the code:

- Smain silently ignores an unsupported extension; no error is reported.
- When `make_dirs`, the open or the source open fails for a `.c` upload, Smain returns from `handle_client`. That ends the whole session (`Coordinator.FailedStoreEndsSession`).
- Smain stores a `.c` file by copying the file of the same name from its own working directory. It opens the target without `O_TRUNC`, so an older and longer file keeps its tail (`Coordinator.Overlay`).
- Smain's `dfile`, `rmfile`, `dtar` and `display` branches are empty.
- Spdf answers a missing file by closing the connection with nothing sent; there is no not-found line. It also sends nothing back for `rmfile`.
- A directory without `smain` is forwarded unchanged.
- There is no `~` expansion.
- The client sends its upload header as `ufile\n<name>\n<dir>\n`, but Smain expects `ufile <name> <dir>` (`Interop.ClientUploadNotRecognised`). The client connects to port 8096 (`Client.SERVER_PORT`), but Smain listens on 8086 (Smain.c:13). Sockets are left out, so the model holds no constant for the port Smain listens on.
- When the file Smain forwards to a storage node opens but cannot be read, as a directory can, `while (!feof(file))` never ends. Smain then sends empty pieces for ever and reads no further command (`Coordinator.StalledSendEndsSession`).

## Model

| member | source | states |
|---|---|---|
| CStrings.CString | Smain.c:94-96 | the C string in a received buffer has no NUL, is a prefix of the buffer, and stops at the first NUL; a buffer without NUL is its own C string |
| CStrings.CStringOfTerminated | Smain.c:96 | a NUL-free text at the front of a buffer is part of its C string whole, and strlen goes on into what follows; followed by a NUL it reads back as itself |
| CStrings.FitBuffer | Smain.c:147 | snprintf into BUF_SIZE keeps a prefix of fewer than 1024 bytes; a short text is kept whole, a long one is cut to exactly 1023 bytes |
| CStrings.Strtok | Smain.c:103-104 | strtok finds no token exactly when only delimiters remain; a token is nonempty and delimiter-free; what is left for the next call is a suffix of the input |
| CStrings.StrtokSplits | Smain.c:103-104 | the input is some delimiters, then the token, then either the end or one delimiter followed by what is left; every byte of the token comes from the input |
| CStrings.TwoTokensIff | Smain.c:103-105 | two successive strtok calls both return a token if and only if the text has a non-delimiter, then a delimiter, then a non-delimiter |
| CStrings.TwoTokens | Smain.c:103-105 | the name/directory pair is found exactly when two tokens exist; both are nonempty and delimiter-free, and NUL-free when the input is |
| CStrings.TwoTokensOf | Smain.c:103-105 | two delimiter-free words joined by one delimiter split back into those two words |
| CStrings.StrtokOfToken | Spdf.c:114-115 | a nonempty delimiter-free word followed by a delimiter is cut off as the token, and the rest follows |
| CStrings.StrtokNoDelims | Spdf.c:116 | strtok with no delimiters returns the whole remaining text, or nothing when none is left |
| CStrings.LastIndexOf | client24s.c:142 | strrchr finds nothing exactly when the byte is absent; otherwise it finds an occurrence with no other one after it |
| CStrings.Strcspn | client24s.c:48 | strcspn is the length of the longest delimiter-free prefix: the index of the first delimiter, or the whole length when there is none |
| CStrings.Strstr | Smain.c:148 | strstr gives the first occurrence of the pattern, and gives nothing exactly when the pattern occurs nowhere |
| CStrings.FindFrom | Smain.c:148 | strstr finds an occurrence with none before it, or reports that there is none at all |
| CStrings.Memmove | Smain.c:151 | the moved bytes land at the destination as they were before the call, and nothing else changes |
| CStrings.Strncpy | Smain.c:152 | the first n bytes of the source C string land at the position, padded with NUL, and nothing else changes |
| CStrings.Chunks | Spdf.c:228-234 | the fread pieces concatenate to the file; each is nonempty and at most BUF_SIZE, and all but the last are full |
| FileSystem.Mkdir | Smain.c:271-278 | mkdir reports EEXIST exactly when something is at the path; it creates the directory exactly when nothing is there and the system allows it, and otherwise changes nothing |
| FileSystem.DirTarget | Smain.c:262-265 | the path make_dirs works on is the snprintf copy, with exactly one '/' removed when the copy ends in '/' and unchanged otherwise |
| FileSystem.MkdirAll | Smain.c:266-281 | the mkdir walk never touches files; a walk that fails stops at a path that neither exists nor can be created |
| FileSystem.MkdirAllSucceeds | Smain.c:266-282 | make_dirs returns 0 if and only if every path on the walk exists or can be created, and every mkdir before a failing one went through |
| FileSystem.MkdirAllDirs | Smain.c:266-281 | the directories afterwards are the ones before, plus each path reached that was not a file and could be created |
| FileSystem.MkdirAllReaches | Smain.c:278-282 | after a walk that returned 0, every path on it exists |
| FileSystem.MkdirAllExisting | Smain.c:271-278 | over paths that all exist, every mkdir fails with EEXIST, so the walk succeeds and changes nothing |
| FileSystem.DirAttempts | Smain.c:262-278 | mkdir is asked for each prefix that ends before a '/' at index 1 or later, shortest first, and last for the whole path without its trailing '/' |
| FileSystem.MakeDirs | Smain.c:256-283 | make_dirs returns 0 exactly when every directory on the path exists or can be made; files are untouched, and directories are only added |
| FileSystem.MakeDirsIdempotent | Smain.c:256-283 | a second make_dirs right after a successful one also succeeds and changes nothing |
| FileSystem.JoinPath | Spdf.c:151 | the "%s/%s" path is a prefix of dir/name shorter than BUF_SIZE; it is all of dir/name when that fits, and starts with dir and '/' when the directory fits |
| FileSystem.OpenWrite | Spdf.c:154-157 | opening for writing fails exactly on the empty path, a directory or a refused path; otherwise the file exists afterwards, emptied with truncation and intact without it |
| FileSystem.OpenRead | Smain.c:129-135 | fopen "rb" succeeds exactly when something is at the path and the open is not refused; it reads a file's bytes |
| FileSystem.Remove | Spdf.c:130-137 | remove deletes a file, or a directory with nothing below it, and fails otherwise; nothing else changes |
| FileSystem.WriteFileIn | Spdf.c:145-157 | when make_dirs and the "wb" open succeed, `<dir>/<name>` holds the written bytes; otherwise the files are as they were; other files keep their bytes |
| FileSystem.MakeDirsAfterWrite | Spdf.c:145-148 | after a successful store, make_dirs for the same directory succeeds again without changing anything |
| FileSystem.WriteFileInIdempotent | Stext.c:103-120 | when make_dirs succeeds, storing the same bytes in the same file twice leaves the filesystem as storing them once |
| FileSystem.Written | Spdf.c:164-168 | one fwrite puts a prefix of its piece on disk; it falls short exactly when the system cuts it, to the count the system allows |
| FileSystem.WriteStopping | Spdf.c:160-182 | the file gets a prefix of the pieces' bytes, and all of them when no write is short |
| FileSystem.ShortWriteStops | Spdf.c:163-180 | after the first short fwrite nothing more is written: the file holds the earlier pieces and what that call managed to write |
| FileSystem.WriteIgnoring | Stext.c:118-120 | with short writes ignored, the file holds at most the received bytes, and exactly them when no write is short |
| FileSystem.ShortWriteIgnored | Stext.c:118-120 | when only one fwrite is short, the loop goes on: the file holds the pieces before it whole, what that call wrote, then every later piece whole |
| Coordinator.ParseCommand | Smain.c:100-189 | a command is an upload if and only if it starts with "ufile " and has two space-separated tokens after it; name and directory are nonempty, space-free and NUL-free |
| Coordinator.ParseUploadLine | Smain.c:100-105 | "ufile <name> <dir>" is read back as the upload of that name to that directory |
| Coordinator.Extension | Smain.c:108 | there is no extension exactly when the name has no '.'; otherwise it is the suffix from the last '.' |
| Coordinator.Classify | Smain.c:108-157 | a name is a C source, a PDF or a text file if and only if it ends with ".c", ".pdf" or ".txt" respectively |
| Coordinator.ExtensionOfSuffix | Smain.c:108-111 | a '.'-led suffix with no other '.' is the extension exactly when the name ends with it |
| Coordinator.ReplaceFirst | Smain.c:148-153 | the reference rewrite replaces the first occurrence of the pattern, or changes nothing when it does not occur |
| Coordinator.PdfDest | Smain.c:145-153 | the memmove/strncpy rewrite for PDFs equals replacing the first "smain" of the fitted directory with "spdf" |
| Coordinator.PdfRewriteShape | Smain.c:151-152 | after the memmove and the strncpy, the buffer holds the rewritten path and then two NULs, so its C string is the rewritten path |
| Coordinator.TextDest | Smain.c:159-167 | the rewrite for text files equals replacing the first "smain" with "stext", and keeps the length |
| Coordinator.TextRewriteShape | Smain.c:165-166 | the text memmove leaves the buffer as it was, and the strncpy overwrites "smain" in place, leaving the rewritten path and one NUL |
| Coordinator.FeofChunks | Smain.c:242-250 | the feof loop's sends concatenate to the file; all but the last are full, and the last is empty exactly when the size is a multiple of BUF_SIZE |
| Coordinator.SendToServer | Smain.c:198-254 | nothing is sent when the connect or the open fails; a regular file is sent as the directory, then the name, then its bytes in pieces of at most BUF_SIZE; a source that opens but is a directory never finishes sending, after the directory and the name |
| Coordinator.Overlay | Smain.c:121-139 | writing without O_TRUNC puts the new bytes first and keeps the old file's tail beyond them |
| Coordinator.StoreLocal | Smain.c:114-141 | the session goes on exactly when make_dirs returns 0, the target opens for writing, and the source opens for reading; otherwise it ends. A copy that goes through leaves the target holding the source overlaid on what was there. No other file changes |
| Coordinator.StoreLocalIdempotent | Smain.c:114-141 | copying the same `.c` file to the same place again right after a successful copy changes nothing |
| Coordinator.Route | Smain.c:108-170 | an unclassified name does nothing; a C source is the local store; a PDF or text name is one send_to_server to its node, with the first "smain" of the directory rewritten to that node's root, so its first send is the rewritten directory; only a C source can end the session; the session gets stuck exactly when a PDF or text name is a directory that opens and its node is reachable |
| Coordinator.Step | Smain.c:100-189 | only a well-formed upload acts; every other command leaves everything unchanged |
| Coordinator.RunSession | Smain.c:94-190 | every command is handled unless the session stops early. It stops by ending, after a `.c` upload, or by getting stuck, after a `.pdf` or `.txt` upload of a directory, and never both. All connections go to the two storage nodes. Files are never lost, and directories are only added |
| Coordinator.StepStops | Smain.c:108-170 | a command that ends the session is a `.c` upload; one that gets it stuck is a `.pdf` or `.txt` upload whose source is a directory |
| Coordinator.SessionCarriesStep | Smain.c:94-190 | a command that acts and does not stop the session is followed by the rest of the session on the filesystem it left; its connect attempts come first, and it counts as one handled command |
| Coordinator.IgnoredCommandSkipped | Smain.c:174-190 | a command that does nothing leaves the rest of the session as if it had not come |
| Coordinator.FailedStoreEndsSession | Smain.c:114-135 | once a local store fails, no later command is handled |
| Coordinator.StalledSendEndsSession | Smain.c:242-250 | once a send to a storage node never ends, no later command is handled |
| Coordinator.SessionStopsEarly | Smain.c:94-190 | commands that arrive after the one that stopped a session change nothing about it |
| PdfNode.ParseRequest | Spdf.c:98-122 | "dfile " requests the text up to the first newline; "rmfile " requests the rest verbatim; anything else is an upload exactly when it has two newline-separated tokens, with the remainder as the first part of the file |
| PdfNode.ParseStore | Spdf.c:114-122 | the upload header is invalid exactly when it lacks two newline-separated tokens; name and directory are nonempty, and the first part, if any, is a suffix of the buffer |
| PdfNode.StoreRequestRoundTrip | Spdf.c:109-124 | the header `<name>\n<dir>\n<bytes>` is parsed back to that name, directory and first part |
| PdfNode.ParseStoreOf | Spdf.c:114-116 | the three strtok calls take apart a header built from a name, a directory and a first part |
| PdfNode.FetchRequestRoundTrip | Spdf.c:98-102 | "dfile <path>", with or without a newline and more after it, asks for exactly that path |
| PdfNode.DeleteRequestRoundTrip | Spdf.c:109-111 | "rmfile <path>" asks to delete exactly that path |
| PdfNode.FetchReply | Spdf.c:217-247 | a file that opens is sent whole in recv-sized pieces, followed by a half-close; otherwise nothing is sent and there is no half-close |
| PdfNode.Pieces | Spdf.c:160-176 | the written pieces are the first part followed by every later buffer |
| PdfNode.StoreFile | Spdf.c:139-191 | the stored file holds a prefix of the first part plus later buffers, and all of it when no write is short; nothing lands when make_dirs or the open fails |
| PdfNode.HandleClient | Spdf.c:79-128 | only the first buffer is parsed: a fetch changes nothing, a delete removes, an upload stores the rest, an invalid request does nothing, and only a fetch replies |
| PdfNode.UploadConnectionStores | Spdf.c:113-124 | a connection whose first buffer is an upload header stores the file from that header and the later buffers |
| PdfNode.StoredFileReads | Spdf.c:217-228 | a file stored with every write complete opens for reading and yields the first part followed by every later buffer |
| PdfNode.UploadThenDownload | Spdf.c:98-124 | after an upload whose writes were complete, a download of `<dir>/<name>` returns exactly the uploaded bytes |
| PdfNode.DownloadConnection | Spdf.c:98-106 | a connection carrying "dfile <path>" leaves the files alone and gets the fetch reply for that path |
| PdfNode.DeleteConnection | Spdf.c:109-111 | a connection carrying "rmfile <path>" removes that path and gets no reply |
| TextNode.HandleClient | Stext.c:76-130 | with fewer than two buffers nothing is stored; otherwise `<dir>/<name>` holds what the write loop that ignores short writes makes of the later buffers: at most their bytes, and exactly them when no write is short; other files keep their bytes |
| TextNode.TransferStores | Stext.c:83-120 | a transfer of directory, name and body stores exactly the body's bytes when the store can go through |
| TextNode.TransferIdempotent | Stext.c:103-120 | when make_dirs for the directory succeeds, receiving the same transfer twice stores the same as receiving it once |
| Client.Trimmed | client24s.c:47-48 | the matched line is the input cut at its first newline; it has no newline and no NUL |
| Client.Recognise | client24s.c:50-75 | each branch is taken if and only if its keyword prefixes the line and no earlier one does; an upload needs two space-separated tokens, and a download takes the whole rest of the line |
| Client.UploadHeader | client24s.c:116 | the header is exactly "ufile\n<name>\n<dir>\n" when that fits the buffer, and otherwise its first 1023 bytes |
| Client.UploadHeaderFields | client24s.c:116 | a header that fits splits on newlines into "ufile", the name and the directory, with nothing after |
| Client.Upload | client24s.c:111-131 | the header always goes out; the file's bytes follow, and then a half-close, exactly when the file opens |
| Client.DownloadRequest | client24s.c:138 | the request starts with "dfile ", fits the buffer and carries the path, or a prefix of it when too long |
| Client.DownloadRequestIsLine | client24s.c:61-67 | the request the client sends for a download line is that line itself |
| Client.LocalName | client24s.c:142-147 | the local name is the part of the path after its last '/', or the whole path without one |
| Client.Download | client24s.c:133-172 | a download that connects sends the request and, when the local file opens, stores what the write loop that ignores short writes makes of the reply: at most its bytes, and exactly them when no write is short; other files are untouched |
| Client.Step | client24s.c:45-76 | an upload line sends the upload's header, file bytes and half-close; a removal sends the line; a download line stores what the download stores and sends its request; nothing else sends or changes local files |
| Interop.ClientUploadNotRecognised | client24s.c:116 | the client's upload header is never an upload for the coordinator, since it has a newline where the coordinator wants a space |

## Left out

- Sockets, `accept`, `fork` and the reaping of children are not modelled. Each connection is modelled as a function of the buffers it receives, and each program's filesystem is a value passed in and out.
- Message framing is not modelled. Each `send` is taken to arrive as one `recv` buffer, because the programs themselves assume this.
- A `recv` that fails and one that returns 0 are not told apart. None of the programs does anything different on them beyond logging.
- Logging (`printf`, `perror`) is not modelled. It has no effect on state.
- `client24s.c`'s `connect_to_server` is not modelled. The model stands in for it with the `Env` oracle's set of reachable ports. The main connection made at start-up is taken as given.
- `Coordinator.StoreLocal`: the result of Smain's `write` calls is ignored in the source. The model assumes they are complete.
- `Coordinator.SendToServer`: does not model a failing `send`, which stops the loop in the source. The socket and `inet_pton` failures are not modelled either, because the address is a constant. A directory is the only source that opens but cannot be read; a regular file whose `fread` fails with an I/O error, which would spin the feof loop the same way, is not modelled, because the filesystem holds no such state.
- `PdfNode.FetchReply`: does not model a failing `send` (the loop breaks) or a failing `fread`. A file that opens is sent whole.
- `PdfNode.HandleClient`: requires the first buffer to be shorter than BUF_SIZE. A full buffer makes `buffer[n] = '\0'` write past the array, which C leaves undefined. The same applies to `Coordinator.RunSession`, `Coordinator.Step`, `Coordinator.ParseCommand` and `TextNode.HandleClient`.
- `TextNode.HandleClient`: requires the directory's C string to be nonempty. `make_dirs` reads `tmp[len - 1]`, which is out of bounds for an empty path. `FileSystem.MakeDirs` has the same requirement, and Smain and Spdf never pass it an empty path.
- `Client.Step`: requires the line to be shorter than BUF_SIZE, as `fgets` guarantees. `fgets` at end of input is not modelled; it leaves the previous line in the buffer.
- `Client.Download`: the server's reply is a parameter. What a given server would send is not derived here, because each program is modelled on its own.
- Paths are compared as strings, with no normalisation. `a/` and `a`, and `./a` and `a`, are different paths.
- `mkdir` does not check that the parent directory exists. A refusal for that reason comes from the oracle, like every other refusal.
- `fopen` of a directory for writing is refused. `fopen` of a directory for reading succeeds. Smain's `.c` copy loop then reads nothing, and the feof loop of `send_to_server` never ends.
- Smain's `dfile`, `rmfile`, `dtar` and `display` branches are modelled only as recognised commands that do nothing, because they are empty in the source.
- The end-to-end upload and download paths from the client through the coordinator to a storage node are not proved. The programs disagree on the port and on the header format, so no such round trip holds.

=== FILE: client.dfy ===
/** client24s.c: the interactive client. Each input line is cut at its
    first newline and matched against `ufile `, `rmfile ` and `dfile `. An
    upload sends a newline-separated header and then the file on the
    long-lived connection; a removal sends the line itself; a download
    opens a new connection, sends `dfile <path>` and writes what comes back
    to a local file named after the path's last component. */
module Client {
  import opened CStrings
  import opened FileSystem

  /** The port the client connects to (client24s.c:11). */
  const SERVER_PORT: int := 8096

  /** The line as matched: fgets' C string cut at its first newline
      (client24s.c:48). */
  function Trimmed(buf: Bytes): (line: Bytes)
    ensures NUL !in line && NoneIn(line, NEWLINE)
    ensures line <= CString(buf)
    ensures |line| < |CString(buf)| ==> CString(buf)[|line|] == '\n'
  {
    var s := CString(buf);
    s[..Strcspn(s, NEWLINE)]
  }

  /** What the if-chain of client24s.c:50-75 makes of a line. */
  datatype Input =
    | UploadLine(filename: Bytes, dest: Bytes)
    | MalformedUpload
    | RemoveLine(line: Bytes)
    | DownloadLine(path: Bytes)
    | Unknown

  /** The if-chain of client24s.c:50-75 on the trimmed line: `ufile ` needs
      two tokens split on ' '; `rmfile ` keeps the whole line; `dfile `
      takes everything after the keyword, even nothing. */
  function Recognise(buf: Bytes): (c: Input)
    ensures c.UploadLine? || c.MalformedUpload? <==> "ufile " <= Trimmed(buf)
    ensures c.UploadLine? <==> "ufile " <= Trimmed(buf) && HasTwoTokens(Trimmed(buf)[6..], {' '})
    ensures c.UploadLine? ==> |c.filename| > 0 && NoneIn(c.filename, {' '}) && NUL !in c.filename
    ensures c.UploadLine? ==> |c.dest| > 0 && NoneIn(c.dest, {' '}) && NUL !in c.dest
    ensures c.UploadLine? ==> 6 + |c.filename| + 1 + |c.dest| <= |Trimmed(buf)|
    ensures c.RemoveLine? <==> !("ufile " <= Trimmed(buf)) && "rmfile " <= Trimmed(buf)
    ensures c.RemoveLine? ==> c.line == Trimmed(buf)
    ensures c.DownloadLine? <==> !("ufile " <= Trimmed(buf)) && !("rmfile " <= Trimmed(buf)) && "dfile " <= Trimmed(buf)
    ensures c.DownloadLine? ==> Trimmed(buf) == "dfile " + c.path
    ensures c.Unknown? <==> !("ufile " <= Trimmed(buf)) && !("rmfile " <= Trimmed(buf)) && !("dfile " <= Trimmed(buf))
  {
    var line := Trimmed(buf);
    if "ufile " <= line then
      match TwoTokens(line[6..], {' '})
      case Some((filename, dest)) => UploadLine(filename, dest)
      case None => MalformedUpload
    else if "rmfile " <= line then RemoveLine(line)
    else if "dfile " <= line then
      assert line == "dfile " + line[6..];
      DownloadLine(line[6..])
    else Unknown
  }

  /** The upload header: snprintf "ufile\n%s\n%s\n" into BUF_SIZE
      (client24s.c:116). */
  function UploadHeader(filename: Bytes, dest: Bytes): (h: Bytes)
    ensures |h| < BUF_SIZE
    ensures h <= "ufile\n" + filename + "\n" + dest + "\n"
    ensures |filename| + |dest| + 8 < BUF_SIZE ==> h == "ufile\n" + filename + "\n" + dest + "\n"
    ensures |filename| + |dest| + 8 >= BUF_SIZE ==> |h| == BUF_SIZE - 1
  {
    FitBuffer("ufile\n" + filename + "\n" + dest + "\n")
  }

  /** A header that fits its buffer splits on newlines back into the
      keyword, the name and the directory, with nothing after. */
  lemma UploadHeaderFields(filename: Bytes, dest: Bytes)
    requires |filename| > 0 && NoneIn(filename, NEWLINE)
    requires |dest| > 0 && NoneIn(dest, NEWLINE)
    requires |filename| + |dest| + 8 < BUF_SIZE
    ensures var h := UploadHeader(filename, dest);
            var first := Strtok(h, NEWLINE);
            var second := Strtok(first.rest, NEWLINE);
            var third := Strtok(second.rest, NEWLINE);
            first.token == Some("ufile") && second.token == Some(filename)
            && third.token == Some(dest) && third.rest == []
  {
    var h := UploadHeader(filename, dest);
    var afterDest: Bytes := dest + ['\n'] + [];
    var afterName: Bytes := filename + ['\n'] + afterDest;
    assert h == "ufile" + ['\n'] + afterName;
    assert NoneIn("ufile", NEWLINE);
    StrtokOfToken("ufile", '\n', afterName, NEWLINE);
    StrtokOfToken(filename, '\n', afterDest, NEWLINE);
    StrtokOfToken(dest, '\n', [], NEWLINE);
  }

  /** What one upload puts on the connection, and whether it shuts down its
      sending side afterwards. */
  datatype Sent = Sent(pieces: seq<Bytes>, halfClosed: bool)

  /** upload_file (client24s.c:111-131): the header goes out first; then, if
      the file opens, its bytes in fread-sized pieces and a half-close. */
  function Upload(fs: Fs, env: Env, filename: Bytes, dest: Bytes): (r: Sent)
    ensures |r.pieces| >= 1 && r.pieces[0] == UploadHeader(filename, dest)
    ensures r.halfClosed <==> OpenRead(fs, env, filename).Some?
    ensures !r.halfClosed ==> r.pieces == [UploadHeader(filename, dest)]
    ensures r.halfClosed ==> Concat(r.pieces[1..]) == OpenRead(fs, env, filename).value && RecvStream(r.pieces[1..])
  {
    var header := UploadHeader(filename, dest);
    match OpenRead(fs, env, filename)
    case None => Sent([header], false)
    case Some(content) =>
      var body := Chunks(content, BUF_SIZE);
      assert ([header] + body)[1..] == body;
      Sent([header] + body, true)
  }

  /** The download request: snprintf "dfile %s" into BUF_SIZE
      (client24s.c:138). */
  function DownloadRequest(path: Bytes): (q: Bytes)
    ensures |q| < BUF_SIZE && "dfile " <= q
    ensures q[6..] <= path
    ensures |path| + 6 < BUF_SIZE ==> q[6..] == path
  {
    FitBuffer("dfile " + path)
  }

  /** The path a download line names always fits the request buffer, so the
      request is the trimmed line itself. */
  lemma DownloadRequestIsLine(buf: Bytes)
    requires |buf| < BUF_SIZE
    requires Recognise(buf).DownloadLine?
    ensures DownloadRequest(Recognise(buf).path) == Trimmed(buf)
  {
    var path := Recognise(buf).path;
    assert |Trimmed(buf)| <= |CString(buf)| <= |buf|;
    assert "dfile " + path == Trimmed(buf);
  }

  /** The local file name: the text after the last '/', or the whole path
      when there is none (client24s.c:142-147). */
  function LocalName(path: Bytes): (n: Bytes)
    ensures '/' !in n
    ensures EndsWith(path, n)
    ensures '/' !in path ==> n == path
    ensures '/' in path ==> |n| < |path| && path[|path| - |n| - 1] == '/'
  {
    match LastIndexOf(path, '/')
    case None => path
    case Some(i) => path[i + 1..]
  }

  /** The result of a download: the request sent on the new connection, if
      it connected, and the client's filesystem after. */
  datatype Fetched = Fetched(request: Option<Bytes>, fs: Fs)

  /** The dfile branch and download_file (client24s.c:61-71, 133-172): a new
      connection; the request; fopen(LocalName(path), "wb"); every received
      buffer written in order, a short fwrite not noticed. `reply` is what
      the server sends back on that connection. */
  function Download(fs: Fs, env: Env, path: Bytes, reply: seq<Bytes>): (r: Fetched)
    ensures r.request.None? <==> SERVER_PORT !in env.reachable
    ensures r.request.Some? ==> r.request.value == DownloadRequest(path)
    ensures r.fs.dirs == fs.dirs
    ensures r.request.None? || OpenWrite(fs, env, LocalName(path), true).None? ==> r.fs == fs
    ensures r.request.Some? && OpenWrite(fs, env, LocalName(path), true).Some? ==>
              LocalName(path) in r.fs.files
              && r.fs.files[LocalName(path)] == WriteIgnoring(env, reply, 0)
              && |r.fs.files[LocalName(path)]| <= |Concat(reply)|
              && (WritesComplete(env, reply, 0) ==> r.fs.files[LocalName(path)] == Concat(reply))
    ensures forall p :: p in fs.files && p != LocalName(path) ==> p in r.fs.files && r.fs.files[p] == fs.files[p]
    ensures Valid(fs) ==> Valid(r.fs)
  {
    if SERVER_PORT !in env.reachable then Fetched(None, fs)
    else
      var name := LocalName(path);
      match OpenWrite(fs, env, name, true)
      case None => Fetched(Some(DownloadRequest(path)), fs)
      case Some(held) => Fetched(Some(DownloadRequest(path)), held.(files := held.files[name := WriteIgnoring(env, reply, 0)]))
  }

  /** What one input line does: the client's filesystem after, what goes
      out on the long-lived connection, whether that connection is
      half-closed, and the request of a download connection. */
  datatype Effect = Effect(fs: Fs, sent: seq<Bytes>, halfClosed: bool, request: Option<Bytes>)

  /** One pass of the loop of client24s.c:45-76 over the line fgets read
      into `buf`; `reply` is what a download connection receives. */
  function Step(fs: Fs, env: Env, buf: Bytes, reply: seq<Bytes>): (r: Effect)
    requires |buf| < BUF_SIZE
    ensures Recognise(buf).MalformedUpload? || Recognise(buf).Unknown? ==> r == Effect(fs, [], false, None)
    ensures Recognise(buf).RemoveLine? ==> r == Effect(fs, [Trimmed(buf)], false, None)
    ensures Recognise(buf).UploadLine? ==>
              r.fs == fs && r.request.None? && |r.sent| >= 1
              && r.sent[0] == UploadHeader(Recognise(buf).filename, Recognise(buf).dest)
    ensures Recognise(buf).UploadLine? ==>
              && r.sent == Upload(fs, env, Recognise(buf).filename, Recognise(buf).dest).pieces
              && r.halfClosed == Upload(fs, env, Recognise(buf).filename, Recognise(buf).dest).halfClosed
    ensures Recognise(buf).DownloadLine? ==>
              && r.fs == Download(fs, env, Recognise(buf).path, reply).fs
              && r.request == Download(fs, env, Recognise(buf).path, reply).request
              && r.sent == [] && !r.halfClosed
    ensures r.sent != [] ==> Recognise(buf).UploadLine? || Recognise(buf).RemoveLine?
    ensures r.request.Some? ==> Recognise(buf).DownloadLine? && r.request.value == Trimmed(buf)
    ensures r.fs != fs ==> Recognise(buf).DownloadLine?
    ensures Valid(fs) ==> Valid(r.fs)
  {
    match Recognise(buf)
    case UploadLine(filename, dest) =>
      var up := Upload(fs, env, filename, dest);
      Effect(fs, up.pieces, up.halfClosed, None)
    case MalformedUpload => Effect(fs, [], false, None)
    case RemoveLine(line) => Effect(fs, [line], false, None)
    case DownloadLine(path) =>
      DownloadRequestIsLine(buf);
      var got := Download(fs, env, path, reply);
      Effect(got.fs, [], false, got.request)
    case Unknown => Effect(fs, [], false, None)
  }
}

=== FILE: coordinator.dfy ===
/** Smain.c: the coordinator's session. Each received buffer is one command;
    only `ufile <name> <dir>` does anything. A `.c` file is copied from the
    coordinator's working directory into `<dir>/<name>`; a `.pdf` or `.txt`
    file is sent to its storage node, with the first "smain" of the
    directory rewritten to that node's root. */
module Coordinator {
  import opened CStrings
  import opened FileSystem

  /** The storage nodes' address and ports (Smain.c:155, 169). */
  const SHARD_HOST: Bytes := "127.0.0.1"
  const PDF_PORT: int := 8081
  const TEXT_PORT: int := 8082

  /** The namespace segment the coordinator rewrites, and what replaces it. */
  const ROOT_SEGMENT: Bytes := "smain"
  const PDF_SEGMENT: Bytes := "spdf"
  const TEXT_SEGMENT: Bytes := "stext"

  /** A command as handle_client's if-chain sees it. Every keyword but
      `ufile` has an empty branch. */
  datatype Command =
    | Upload(filename: Bytes, dest: Bytes)
    | MalformedUpload
    | Download
    | RemoveFile
    | Archive
    | Display
    | Unrecognised

  /** The if-chain of Smain.c:100-189 over the received C string; `ufile`
      takes two strtok tokens split on ' '. */
  function ParseCommand(buf: Bytes): (c: Command)
    requires |buf| < BUF_SIZE
    ensures c.Upload? <==> "ufile " <= CString(buf) && HasTwoTokens(CString(buf)[6..], {' '})
    ensures c.Upload? ==> |c.filename| > 0 && NoneIn(c.filename, {' '}) && NUL !in c.filename
    ensures c.Upload? ==> |c.dest| > 0 && NoneIn(c.dest, {' '}) && NUL !in c.dest
    ensures c.Upload? ==> |c.filename| + 1 + |c.dest| + 6 <= |buf|
  {
    var s := CString(buf);
    if "ufile " <= s then
      match TwoTokens(s[6..], {' '})
      case Some((filename, dest)) => Upload(filename, dest)
      case None => MalformedUpload
    else if "dfile " <= s then Download
    else if "rmfile " <= s then RemoveFile
    else if "dtar " <= s then Archive
    else if "display " <= s then Display
    else Unrecognised
  }

  /** `ufile <name> <dir>` with single spaces is read back as that upload. */
  lemma ParseUploadLine(filename: Bytes, dest: Bytes)
    requires |filename| > 0 && NoneIn(filename, {' '}) && NUL !in filename
    requires |dest| > 0 && NoneIn(dest, {' '}) && NUL !in dest
    requires 7 + |filename| + |dest| < BUF_SIZE
    ensures ParseCommand("ufile " + filename + " " + dest) == Upload(filename, dest)
  {
    var line: Bytes := "ufile " + filename + " " + dest;
    assert NUL !in "ufile " && NUL !in " ";
    assert NUL !in line;
    CStringOfTerminated(line, []);
    assert line[6..] == filename + [' '] + dest;
    TwoTokensOf(filename, ' ', dest, {' '});
  }

  /** The file categories the coordinator acts on. */
  datatype Category = CSource | Pdf | Text

  /** strrchr(filename, '.'): the suffix from the last '.', if any. */
  function Extension(filename: Bytes): (e: Option<Bytes>)
    ensures e.None? <==> '.' !in filename
    ensures e.Some? ==> EndsWith(filename, e.value) && |e.value| > 0 && e.value[0] == '.' && '.' !in e.value[1..]
  {
    match LastIndexOf(filename, '.')
    case None => None
    case Some(k) =>
      assert filename[k..][1..] == filename[k + 1..];
      Some(filename[k..])
  }

  /** The strcmp chain of Smain.c:109-157 on the extension. */
  function Classify(filename: Bytes): (r: Option<Category>)
    ensures r == Some(CSource) <==> EndsWith(filename, ".c")
    ensures r == Some(Pdf) <==> EndsWith(filename, ".pdf")
    ensures r == Some(Text) <==> EndsWith(filename, ".txt")
  {
    var e := Extension(filename);
    ExtensionOfSuffix(filename, ".c");
    ExtensionOfSuffix(filename, ".pdf");
    ExtensionOfSuffix(filename, ".txt");
    if e == Some(".c") then Some(CSource)
    else if e == Some(".pdf") then Some(Pdf)
    else if e == Some(".txt") then Some(Text)
    else None
  }

  /** A name ends with a '.'-led suffix without another '.' exactly when that
      suffix is its extension. */
  lemma ExtensionOfSuffix(filename: Bytes, suffix: Bytes)
    requires |suffix| > 0 && suffix[0] == '.' && '.' !in suffix[1..]
    ensures Extension(filename) == Some(suffix) <==> EndsWith(filename, suffix)
  {
    if EndsWith(filename, suffix) {
      var k := |filename| - |suffix|;
      assert filename[k] == '.';
    }
  }

  /** Replacing the first occurrence of `pat` in `s` by `rep`. */
  predicate ReplacesFirst(s: Bytes, pat: Bytes, rep: Bytes, r: Bytes) {
    && ((forall k :: 0 <= k <= |s| ==> !OccursAt(s, pat, k)) ==> r == s)
    && (forall k :: 0 <= k <= |s| && OccursAt(s, pat, k) && (forall j :: 0 <= j < k ==> !OccursAt(s, pat, j))
                    ==> r == s[..k] + rep + s[k + |pat|..])
  }

  /** The reference rewrite: the first occurrence of `pat` replaced by `rep`,
      or `s` itself when `pat` does not occur. */
  function ReplaceFirst(s: Bytes, pat: Bytes, rep: Bytes): (r: Bytes)
    ensures ReplacesFirst(s, pat, rep, r)
  {
    match Strstr(s, pat)
    case None => s
    case Some(k) => s[..k] + rep + s[k + |pat|..]
  }

  /** Smain.c:146-153: copy the directory into a buffer, find "smain", shift
      the rest one byte left with memmove, then strncpy "spdf" over it. */
  function PdfDest(dest: Bytes): (r: Bytes)
    requires NUL !in dest
    ensures r == ReplaceFirst(FitBuffer(dest), ROOT_SEGMENT, PDF_SEGMENT)
    ensures Strstr(FitBuffer(dest), ROOT_SEGMENT).Some? ==> |r| == |FitBuffer(dest)| - 1
  {
    var s := FitBuffer(dest);
    assert NUL !in s by { assert s <= dest; }
    match Strstr(s, ROOT_SEGMENT)
    case None => s
    case Some(k) =>
      var copied := Strncpy(Memmove(s + [NUL], k + 4, k + 5, |s| - (k + 5) + 1), k, PDF_SEGMENT, 4);
      PdfRewriteShape(s, k);
      CString(copied)
  }

  /** After the memmove and the strncpy the buffer holds the rewritten path
      followed by two NULs. */
  lemma PdfRewriteShape(s: Bytes, k: nat)
    requires NUL !in s && OccursAt(s, ROOT_SEGMENT, k)
    ensures var copied := Strncpy(Memmove(s + [NUL], k + 4, k + 5, |s| - (k + 5) + 1), k, PDF_SEGMENT, 4);
            && copied == s[..k] + PDF_SEGMENT + s[k + 5..] + [NUL, NUL]
            && CString(copied) == s[..k] + PDF_SEGMENT + s[k + 5..]
  {
    var buf := s + [NUL];
    var moved := Memmove(buf, k + 4, k + 5, |s| - (k + 5) + 1);
    var copied := Strncpy(moved, k, PDF_SEGMENT, 4);
    var want := s[..k] + PDF_SEGMENT + s[k + 5..];
    CStringOfTerminated(PDF_SEGMENT, []);
    assert NUL !in want;
    forall i | 0 <= i < |copied| ensures copied[i] == (want + [NUL, NUL])[i] {
      if i < k {
        assert copied[i] == moved[i] == s[i];
      } else if i < k + 4 {
        assert copied[i] == PDF_SEGMENT[i - k];
      } else if i < |s| - 1 {
        assert copied[i] == moved[i] == buf[i + 1] == s[i + 1];
        assert want[i] == s[k + 5..][i - k - 4];
      } else {
        assert copied[i] == moved[i] == NUL;
      }
    }
    assert copied == want + [NUL, NUL];
    CStringOfTerminated(want, [NUL, NUL]);
  }

  /** Smain.c:160-167: the same with "stext"; its memmove moves the tail
      onto itself, and strncpy overwrites "smain" in place. */
  function TextDest(dest: Bytes): (r: Bytes)
    requires NUL !in dest
    ensures r == ReplaceFirst(FitBuffer(dest), ROOT_SEGMENT, TEXT_SEGMENT)
    ensures |r| == |FitBuffer(dest)|
  {
    var s := FitBuffer(dest);
    assert NUL !in s by { assert s <= dest; }
    match Strstr(s, ROOT_SEGMENT)
    case None => s
    case Some(k) =>
      var copied := Strncpy(Memmove(s + [NUL], k + 5, k + 5, |s| - (k + 5) + 1), k, TEXT_SEGMENT, 5);
      TextRewriteShape(s, k);
      CString(copied)
  }

  /** The memmove of Smain.c:165 leaves the buffer as it was; the strncpy
      then overwrites "smain" with "stext". */
  lemma TextRewriteShape(s: Bytes, k: nat)
    requires NUL !in s && OccursAt(s, ROOT_SEGMENT, k)
    ensures Memmove(s + [NUL], k + 5, k + 5, |s| - (k + 5) + 1) == s + [NUL]
    ensures var copied := Strncpy(Memmove(s + [NUL], k + 5, k + 5, |s| - (k + 5) + 1), k, TEXT_SEGMENT, 5);
            && copied == s[..k] + TEXT_SEGMENT + s[k + 5..] + [NUL]
            && CString(copied) == s[..k] + TEXT_SEGMENT + s[k + 5..]
  {
    var buf := s + [NUL];
    var moved := Memmove(buf, k + 5, k + 5, |s| - (k + 5) + 1);
    assert moved == buf;
    var copied := Strncpy(moved, k, TEXT_SEGMENT, 5);
    var want := s[..k] + TEXT_SEGMENT + s[k + 5..];
    CStringOfTerminated(TEXT_SEGMENT, []);
    assert NUL !in want;
    forall i | 0 <= i < |copied| ensures copied[i] == (want + [NUL])[i] {
      if i < k {
        assert copied[i] == s[i];
      } else if i < k + 5 {
        assert copied[i] == TEXT_SEGMENT[i - k];
      } else if i < |s| {
        assert copied[i] == s[i];
      }
    }
    assert copied == want + [NUL];
    CStringOfTerminated(want, [NUL]);
  }

  /** One connect attempt to a storage node and the payloads of its send
      calls in order; nothing was sent when `sent` is empty. `endless`: the
      send loop never ends, so send_to_server never returns. */
  datatype Forward = Forward(host: Bytes, port: int, sent: seq<Bytes>, endless: bool)

  /** The sends of the `while (!feof(file))` loop: one per fread, including
      the empty fread that first meets end-of-file when the size is a
      multiple of BUF_SIZE. */
  function FeofChunks(content: Bytes): (r: seq<Bytes>)
    ensures |r| > 0 && Concat(r) == content
    ensures forall k :: 0 <= k < |r| ==> |r[k]| <= BUF_SIZE
    ensures forall k :: 0 <= k < |r| - 1 ==> |r[k]| == BUF_SIZE
    ensures |r[|r| - 1]| == 0 <==> |content| % BUF_SIZE == 0
    decreases |content|
  {
    if |content| < BUF_SIZE then [content]
    else [content[..BUF_SIZE]] + FeofChunks(content[BUF_SIZE..])
  }

  /** send_to_server: connect; open the file from the working directory;
      send the directory, then the name, then the file. A refused connection
      or a missing file sends nothing. A source that opens but cannot be
      read (a directory: every fread fails and end-of-file is never reached)
      keeps the feof loop sending empty pieces for ever; those add no bytes,
      so `sent` holds the directory and the name. The socket is closed on
      every path that returns, which a `Forward` value leaves implicit. */
  function SendToServer(fs: Fs, env: Env, filename: Bytes, host: Bytes, port: int, dest: Bytes): (r: Forward)
    ensures r.host == host && r.port == port
    ensures port !in env.reachable || OpenRead(fs, env, filename).None? ==> r.sent == [] && !r.endless
    ensures r.endless <==> port in env.reachable && OpenRead(fs, env, filename).Some? && filename !in fs.files
    ensures r.endless ==> r.sent == [dest, filename] && filename in fs.dirs
    ensures port in env.reachable && OpenRead(fs, env, filename).Some? && filename in fs.files ==>
              && |r.sent| >= 3 && r.sent[0] == dest && r.sent[1] == filename
              && Concat(r.sent[2..]) == fs.files[filename]
              && Concat(r.sent) == dest + filename + fs.files[filename]
              && (forall k :: 2 <= k < |r.sent| ==> |r.sent[k]| <= BUF_SIZE)
  {
    if port !in env.reachable then Forward(host, port, [], false)
    else match OpenRead(fs, env, filename)
      case None => Forward(host, port, [], false)
      case Some(content) =>
        if filename !in fs.files then Forward(host, port, [dest, filename], true)
        else
          var body := FeofChunks(content);
          var sent := [dest, filename] + body;
          assert sent[2..] == body;
          assert sent == [dest] + ([filename] + body);
          assert Concat(sent) == dest + Concat([filename] + body);
          assert ([filename] + body)[1..] == body;
          Forward(host, port, sent, false)
  }

  /** Writing `data` at offset 0 of a file holding `prior` without truncating
      it. */
  function Overlay(prior: Bytes, data: Bytes): (r: Bytes)
    ensures |r| == if |prior| > |data| then |prior| else |data|
    ensures forall i :: 0 <= i < |r| ==> r[i] == (if i < |data| then data[i] else prior[i])
  {
    if |prior| > |data| then data + prior[|data|..] else data
  }

  /** Writing the same bytes again over what a write left changes nothing. */
  lemma OverlayAgain(prior: Bytes, data: Bytes)
    ensures Overlay(Overlay(prior, data), data) == Overlay(prior, data)
  {
  }

  /** What one command did: carry on with the new filesystem and the storage
      node connect attempts it made, or return from handle_client. */
  datatype StepResult = Continue(fs: Fs, forwarded: seq<Forward>) | EndSession(fs: Fs)

  /** A step after which the coordinator never reads another command: one
      of its sends to a storage node does not end. */
  predicate Stalls(st: StepResult) {
    st.Continue? && exists f :: f in st.forwarded && f.endless
  }

  /** Smain.c:114-141: make the directories, open `<dir>/<name>` with
      O_WRONLY|O_CREAT and no O_TRUNC, copy the file of the same name from
      the working directory into it. Each failure returns from handle_client. */
  function StoreLocal(fs: Fs, env: Env, filename: Bytes, dest: Bytes): (r: StepResult)
    requires |dest| > 0
    ensures r.Continue? <==>
              var made := MakeDirs(fs, env, dest).fs;
              && MakeDirs(fs, env, dest).ok
              && JoinPath(dest, filename) != [] && JoinPath(dest, filename) !in made.dirs
              && JoinPath(dest, filename) !in env.openDenied
              && filename !in env.openDenied && (Exists(made, filename) || filename == JoinPath(dest, filename))
    ensures r.Continue? ==> r.forwarded == [] && r.fs.dirs == MakeDirs(fs, env, dest).fs.dirs
    ensures !MakeDirs(fs, env, dest).ok ==> r == EndSession(MakeDirs(fs, env, dest).fs)
    ensures r.Continue? ==> JoinPath(dest, filename) in r.fs.files
    ensures r.Continue? && filename != JoinPath(dest, filename) ==>
              r.fs.files[JoinPath(dest, filename)]
              == Overlay(if JoinPath(dest, filename) in fs.files then fs.files[JoinPath(dest, filename)] else [],
                         if filename in fs.files then fs.files[filename] else [])
    ensures fs.files.Keys <= r.fs.files.Keys
    ensures forall p :: p in r.fs.files && p != JoinPath(dest, filename) ==> p in fs.files && r.fs.files[p] == fs.files[p]
    ensures r.EndSession? && JoinPath(dest, filename) in fs.files ==> r.fs.files[JoinPath(dest, filename)] == fs.files[JoinPath(dest, filename)]
    ensures fs.dirs <= r.fs.dirs
    ensures Valid(fs) ==> Valid(r.fs)
  {
    var made := MakeDirs(fs, env, dest);
    if !made.ok then EndSession(made.fs)
    else
      var target := JoinPath(dest, filename);
      match OpenWrite(made.fs, env, target, false)
      case None => EndSession(made.fs)
      case Some(held) =>
        match OpenRead(held, env, filename)
        case None => EndSession(held)
        case Some(src) => Continue(held.(files := held.files[target := Overlay(held.files[target], src)]), [])
  }

  /** Copying the same `.c` file again right after a copy that went through
      changes nothing: the directories exist (EEXIST), the target opens
      without truncation, and the same bytes land on the same offsets. */
  lemma StoreLocalIdempotent(fs: Fs, env: Env, filename: Bytes, dest: Bytes)
    requires |dest| > 0
    ensures StoreLocal(fs, env, filename, dest).Continue? ==>
              StoreLocal(StoreLocal(fs, env, filename, dest).fs, env, filename, dest) == StoreLocal(fs, env, filename, dest)
  {
    var r := StoreLocal(fs, env, filename, dest);
    if r.Continue? {
      var made := MakeDirs(fs, env, dest).fs;
      var ps := DirAttempts(dest);
      forall k | 0 <= k < |ps| ensures Exists(r.fs, ps[k]) {
        assert ps[k] in ps;
        assert Exists(made, ps[k]);
      }
      MkdirAllExisting(r.fs, env, ps);
      assert MakeDirs(r.fs, env, dest) == DirsResult(true, |ps|, r.fs);
      var target := JoinPath(dest, filename);
      var held := OpenWrite(made, env, target, false).value;
      var src := OpenRead(held, env, filename).value;
      var copied := Overlay(held.files[target], src);
      assert r.fs == held.(files := held.files[target := copied]);
      assert OpenWrite(r.fs, env, target, false) == Some(r.fs);
      if filename == target {
        assert src == held.files[target] && copied == src;
        assert OpenRead(r.fs, env, filename) == Some(copied);
      } else {
        assert OpenRead(r.fs, env, filename) == Some(src);
        OverlayAgain(held.files[target], src);
      }
    }
  }

  /** Smain.c:108-170: what `ufile <name> <dir>` does, by the name's
      extension. */
  function Route(fs: Fs, env: Env, filename: Bytes, dest: Bytes): (r: StepResult)
    requires |dest| > 0 && NUL !in dest && |dest| < BUF_SIZE
    ensures Classify(filename).None? ==> r == Continue(fs, [])
    ensures Classify(filename) == Some(CSource) ==> r == StoreLocal(fs, env, filename, dest)
    ensures Classify(filename) == Some(Pdf) ==>
              r == Continue(fs, [SendToServer(fs, env, filename, SHARD_HOST, PDF_PORT, ReplaceFirst(dest, ROOT_SEGMENT, PDF_SEGMENT))])
    ensures Classify(filename) == Some(Text) ==>
              r == Continue(fs, [SendToServer(fs, env, filename, SHARD_HOST, TEXT_PORT, ReplaceFirst(dest, ROOT_SEGMENT, TEXT_SEGMENT))])
    ensures r.EndSession? ==> Classify(filename) == Some(CSource)
    ensures Classify(filename) == Some(Pdf) ==>
              r.Continue? && r.fs == fs && |r.forwarded| == 1
              && r.forwarded[0].host == SHARD_HOST && r.forwarded[0].port == PDF_PORT
              && (r.forwarded[0].sent != [] ==> r.forwarded[0].sent[0] == ReplaceFirst(dest, ROOT_SEGMENT, PDF_SEGMENT))
    ensures Classify(filename) == Some(Text) ==>
              r.Continue? && r.fs == fs && |r.forwarded| == 1
              && r.forwarded[0].host == SHARD_HOST && r.forwarded[0].port == TEXT_PORT
              && (r.forwarded[0].sent != [] ==> r.forwarded[0].sent[0] == ReplaceFirst(dest, ROOT_SEGMENT, TEXT_SEGMENT))
    ensures Stalls(r) ==>
              (Classify(filename) == Some(Pdf) || Classify(filename) == Some(Text))
              && r.fs == fs && filename in fs.dirs && filename !in fs.files
    ensures (&& ((Classify(filename) == Some(Pdf) && PDF_PORT in env.reachable) || (Classify(filename) == Some(Text) && TEXT_PORT in env.reachable))
             && filename !in env.openDenied && filename in fs.dirs && filename !in fs.files)
            ==> Stalls(r)
    ensures r.Continue? ==> forall f :: f in r.forwarded ==> f.host == SHARD_HOST && (f.port == PDF_PORT || f.port == TEXT_PORT)
    ensures fs.files.Keys <= r.fs.files.Keys
    ensures fs.dirs <= r.fs.dirs
    ensures Valid(fs) ==> Valid(r.fs)
  {
    assert FitBuffer(dest) == dest;
    match Classify(filename)
    case None => Continue(fs, [])
    case Some(CSource) =>
      var r := StoreLocal(fs, env, filename, dest);
      assert !Stalls(r);
      r
    case Some(Pdf) =>
      var f := SendToServer(fs, env, filename, SHARD_HOST, PDF_PORT, PdfDest(dest));
      assert f in [f];
      Continue(fs, [f])
    case Some(Text) =>
      var f := SendToServer(fs, env, filename, SHARD_HOST, TEXT_PORT, TextDest(dest));
      assert f in [f];
      Continue(fs, [f])
  }

  /** One pass of the receive loop of Smain.c:94-190 over one command: only
      a well-formed `ufile` acts. */
  function Step(fs: Fs, env: Env, cmd: Bytes): (r: StepResult)
    requires |cmd| < BUF_SIZE
    ensures !ParseCommand(cmd).Upload? ==> r == Continue(fs, [])
    ensures ParseCommand(cmd).Upload? ==> r == Route(fs, env, ParseCommand(cmd).filename, ParseCommand(cmd).dest)
    ensures r.Continue? ==> forall f :: f in r.forwarded ==> f.host == SHARD_HOST && (f.port == PDF_PORT || f.port == TEXT_PORT)
    ensures fs.files.Keys <= r.fs.files.Keys
    ensures fs.dirs <= r.fs.dirs
    ensures Valid(fs) ==> Valid(r.fs)
  {
    match ParseCommand(cmd)
    case Upload(filename, dest) => Route(fs, env, filename, dest)
    case _ => Continue(fs, [])
  }

  /** The state of a session after its commands: the filesystem, every
      storage node connect attempt in order, how many commands were handled,
      whether handle_client returned early, and whether it got stuck in a
      send that never ends. */
  datatype Session = Session(fs: Fs, forwarded: seq<Forward>, handled: nat, ended: bool, stuck: bool)

  /** What recv hands the loop: each buffer nonempty and shorter than the
      buffer, leaving room for the NUL. */
  predicate ReceivedCommands(cmds: seq<Bytes>) {
    forall k :: 0 <= k < |cmds| ==> 0 < |cmds[k]| < BUF_SIZE
  }

  /** What a session that stopped early says about the command it handled
      last: an upload of a `.c` file when it ended, or of a `.pdf` or `.txt`
      file that is a directory when it got stuck. */
  predicate StoppedBy(cmd: Bytes, fs: Fs, ended: bool, stuck: bool)
    requires |cmd| < BUF_SIZE
  {
    var c := ParseCommand(cmd);
    && c.Upload?
    && (ended ==> Classify(c.filename) == Some(CSource))
    && (stuck ==> (Classify(c.filename) == Some(Pdf) || Classify(c.filename) == Some(Text))
                  && c.filename in fs.dirs && c.filename !in fs.files)
  }

  /** Only an upload stops a session: a `.c` one by returning from
      handle_client, a `.pdf` or `.txt` one whose source is a directory by
      never coming back from send_to_server. */
  lemma StepStops(fs: Fs, env: Env, cmd: Bytes)
    requires |cmd| < BUF_SIZE
    ensures var st := Step(fs, env, cmd);
            st.EndSession? || Stalls(st) ==> StoppedBy(cmd, st.fs, st.EndSession?, Stalls(st))
  {
  }

  /** handle_client over the buffers recv returns, in order, until one
      returns from it or gets stuck. */
  function RunSession(fs: Fs, env: Env, cmds: seq<Bytes>): (r: Session)
    requires ReceivedCommands(cmds)
    ensures r.handled <= |cmds|
    ensures !(r.ended && r.stuck)
    ensures !r.ended && !r.stuck ==> r.handled == |cmds|
    ensures r.ended || r.stuck ==> 0 < r.handled && StoppedBy(cmds[r.handled - 1], r.fs, r.ended, r.stuck)
    ensures forall f :: f in r.forwarded ==> f.host == SHARD_HOST && (f.port == PDF_PORT || f.port == TEXT_PORT)
    ensures fs.files.Keys <= r.fs.files.Keys
    ensures fs.dirs <= r.fs.dirs
    ensures Valid(fs) ==> Valid(r.fs)
    decreases |cmds|
  {
    if |cmds| == 0 then Session(fs, [], 0, false, false)
    else
      var st := Step(fs, env, cmds[0]);
      if st.EndSession? then
        StepStops(fs, env, cmds[0]);
        Session(st.fs, [], 1, true, false)
      else if Stalls(st) then
        StepStops(fs, env, cmds[0]);
        Session(st.fs, st.forwarded, 1, false, true)
      else
        var rest := RunSession(st.fs, env, cmds[1..]);
        assert rest.ended || rest.stuck ==> cmds[1..][rest.handled - 1] == cmds[rest.handled];
        Session(rest.fs, st.forwarded + rest.forwarded, rest.handled + 1, rest.ended, rest.stuck)
  }

  /** A command that acts and carries on is followed by the rest of the
      session, run on the filesystem it left: its connect attempts come
      first and it counts as one more handled command. */
  lemma SessionCarriesStep(fs: Fs, env: Env, cmds: seq<Bytes>)
    requires |cmds| > 0 && ReceivedCommands(cmds)
    ensures ReceivedCommands(cmds[1..])
    ensures var st := Step(fs, env, cmds[0]);
            st.Continue? && !Stalls(st) ==>
              var rest := RunSession(st.fs, env, cmds[1..]);
              RunSession(fs, env, cmds) == Session(rest.fs, st.forwarded + rest.forwarded, rest.handled + 1, rest.ended, rest.stuck)
  {
    ReceivedTail(cmds);
  }

  /** A command other than an upload of a `.c`, `.pdf` or `.txt` file is
      skipped: the session goes on with the next one as if it had not come. */
  lemma IgnoredCommandSkipped(fs: Fs, env: Env, cmds: seq<Bytes>)
    requires |cmds| > 0 && ReceivedCommands(cmds)
    requires Step(fs, env, cmds[0]) == Continue(fs, [])
    ensures RunSession(fs, env, cmds)
            == RunSession(fs, env, cmds[1..]).(handled := RunSession(fs, env, cmds[1..]).handled + 1)
  {
    var later := RunSession(fs, env, cmds[1..]);
    assert [] + later.forwarded == later.forwarded;
  }

  /** A failed local store ends the whole session: no later command is read. */
  lemma FailedStoreEndsSession(fs: Fs, env: Env, cmds: seq<Bytes>)
    requires |cmds| > 0 && ReceivedCommands(cmds)
    ensures Step(fs, env, cmds[0]).EndSession? ==>
              RunSession(fs, env, cmds) == Session(Step(fs, env, cmds[0]).fs, [], 1, true, false)
  {
  }

  /** A send that never ends stops the session after its command. */
  lemma StalledSendEndsSession(fs: Fs, env: Env, cmds: seq<Bytes>)
    requires |cmds| > 0 && ReceivedCommands(cmds)
    ensures Stalls(Step(fs, env, cmds[0])) ==>
              RunSession(fs, env, cmds) == Session(fs, Step(fs, env, cmds[0]).forwarded, 1, false, true)
  {
  }

  /** Nothing after the command that stops a session is ever read. */
  lemma {:induction false} SessionStopsEarly(fs: Fs, env: Env, cmds: seq<Bytes>, more: seq<Bytes>)
    requires ReceivedCommands(cmds) && ReceivedCommands(more)
    ensures ReceivedCommands(cmds + more)
    ensures RunSession(fs, env, cmds).ended || RunSession(fs, env, cmds).stuck ==>
              RunSession(fs, env, cmds + more) == RunSession(fs, env, cmds)
    decreases |cmds|
  {
    ReceivedConcat(cmds, more);
    if |cmds| > 0 {
      var whole := cmds + more;
      assert whole[0] == cmds[0] && whole[1..] == cmds[1..] + more;
      var st := Step(fs, env, cmds[0]);
      if st.Continue? && !Stalls(st) {
        ReceivedTail(cmds);
        SessionStopsEarly(st.fs, env, cmds[1..], more);
      }
    }
  }

  lemma ReceivedTail(cmds: seq<Bytes>)
    requires |cmds| > 0 && ReceivedCommands(cmds)
    ensures ReceivedCommands(cmds[1..])
  {
    forall k | 0 <= k < |cmds[1..]| ensures 0 < |cmds[1..][k]| < BUF_SIZE {
      assert cmds[1..][k] == cmds[k + 1];
    }
  }

  lemma ReceivedConcat(cmds: seq<Bytes>, more: seq<Bytes>)
    requires ReceivedCommands(cmds) && ReceivedCommands(more)
    ensures ReceivedCommands(cmds + more)
  {
    forall k | 0 <= k < |cmds + more| ensures 0 < |(cmds + more)[k]| < BUF_SIZE {
      if k >= |cmds| {
        assert (cmds + more)[k] == more[k - |cmds|];
      }
    }
  }
}

=== FILE: cstrings.dfy ===
/** C string and buffer primitives shared by the coordinator, the two storage
    nodes and the client. A C `char` is a `Byte`; a C string is the part of a
    buffer before its first NUL. Every library routine the four programs call
    on strings (strlen, strcspn, strrchr, strstr, strtok, memmove,
    strncpy, snprintf with "%s") is defined here once. */
module CStrings {

  datatype Option<T> = None | Some(value: T)

  /** One C `char`, as the programs use it: a byte. */
  type Byte = c: char | c as int < 256 witness '\0'
  type Bytes = seq<Byte>

  const NUL: Byte := '\0'

  /** The delimiter set of every newline-separated header. */
  const NEWLINE: set<Byte> := {'\n'}

  /** BUF_SIZE: the size of every fixed buffer in the four programs. */
  const BUF_SIZE: nat := 1024

  /** `s` ends with `suffix`. */
  predicate EndsWith(s: Bytes, suffix: Bytes) {
    |suffix| <= |s| && s[|s| - |suffix|..] == suffix
  }

  lemma EndsWithTrans(s: Bytes, a: Bytes, b: Bytes)
    requires EndsWith(s, a) && EndsWith(a, b)
    ensures EndsWith(s, b)
  {
    assert s[|s| - |b|..] == s[|s| - |a|..][|a| - |b|..];
  }

  /** The C string held by a buffer: everything before the first NUL (strlen). */
  function CString(buf: Bytes): (s: Bytes)
    ensures NUL !in s
    ensures s <= buf
    ensures |s| < |buf| ==> buf[|s|] == NUL
    ensures NUL !in buf ==> s == buf
  {
    if |buf| == 0 || buf[0] == NUL then [] else [buf[0]] + CString(buf[1..])
  }

  /** A NUL-free text in front of a buffer passes whole into its C string;
      strlen goes on into what follows. */
  lemma {:induction false} CStringOfTerminated(s: Bytes, tail: Bytes)
    requires NUL !in s
    ensures CString(s + tail) == s + CString(tail)
  {
    if |s| > 0 {
      assert (s + tail)[1..] == s[1..] + tail;
      CStringOfTerminated(s[1..], tail);
    } else {
      assert s + tail == tail;
    }
  }

  /** snprintf(buf, BUF_SIZE, "%s", s): at most BUF_SIZE - 1 bytes survive. */
  function FitBuffer(s: Bytes): (r: Bytes)
    ensures r <= s
    ensures |r| < BUF_SIZE
    ensures |s| < BUF_SIZE ==> r == s
    ensures |s| >= BUF_SIZE ==> |r| == BUF_SIZE - 1
  {
    if |s| < BUF_SIZE then s else s[..BUF_SIZE - 1]
  }

  /** strspn from `from`: the first index at or after `from` whose byte is not
      a delimiter, or |s|. */
  function SkipDelims(s: Bytes, from: nat, delims: set<Byte>): (i: nat)
    requires from <= |s|
    ensures from <= i <= |s|
    ensures forall k :: from <= k < i ==> s[k] in delims
    ensures i < |s| ==> s[i] !in delims
    decreases |s| - from
  {
    if from == |s| || s[from] !in delims then from else SkipDelims(s, from + 1, delims)
  }

  /** strcspn from `from`: the first index at or after `from` whose byte is a
      delimiter, or |s|. */
  function SpanUntil(s: Bytes, from: nat, delims: set<Byte>): (j: nat)
    requires from <= |s|
    ensures from <= j <= |s|
    ensures forall k :: from <= k < j ==> s[k] !in delims
    ensures j < |s| ==> s[j] in delims
    decreases |s| - from
  {
    if from == |s| || s[from] in delims then from else SpanUntil(s, from + 1, delims)
  }

  /** strcspn(s, delims): the length of the longest prefix free of
      delimiters, which is the index of the first delimiter when there is
      one. */
  function Strcspn(s: Bytes, delims: set<Byte>): (r: nat)
    ensures r <= |s| && NoneIn(s[..r], delims)
    ensures r < |s| ==> s[r] in delims
  {
    SpanUntil(s, 0, delims)
  }

  predicate AllIn(s: Bytes, delims: set<Byte>) {
    forall k :: 0 <= k < |s| ==> s[k] in delims
  }

  predicate NoneIn(s: Bytes, delims: set<Byte>) {
    forall k :: 0 <= k < |s| ==> s[k] !in delims
  }

  /** One strtok call: the token found (NULL is None) and the text the next
      call with a NULL first argument continues from. */
  datatype Tok = Tok(token: Option<Bytes>, rest: Bytes)

  /** `s` is `lead` delimiters, then `tok`, then either its end (and `rest` is
      empty) or one delimiter followed by `rest`. */
  predicate SplitsAs(s: Bytes, delims: set<Byte>, lead: nat, tok: Bytes, rest: Bytes) {
    && lead + |tok| <= |s|
    && AllIn(s[..lead], delims)
    && s[lead..lead + |tok|] == tok
    && ((lead + |tok| == |s| && rest == [])
        || (lead + |tok| < |s| && s[lead + |tok|] in delims && rest == s[lead + |tok| + 1..]))
  }

  /** strtok: skip leading delimiters; no token when only delimiters remain;
      otherwise the token runs to the next delimiter, which is consumed. With
      no delimiters at all (strtok(NULL, "")) the token is the whole
      nonempty remainder. */
  function Strtok(s: Bytes, delims: set<Byte>): (r: Tok)
    ensures r.token.None? <==> AllIn(s, delims)
    ensures r.token.None? ==> r.rest == []
    ensures r.token.Some? ==> |r.token.value| > 0 && NoneIn(r.token.value, delims)
    ensures EndsWith(s, r.rest)
    ensures r.token.Some? ==> |r.token.value| + |r.rest| <= |s|
    ensures r.token.Some? && |r.rest| > 0 ==> |r.token.value| + 1 + |r.rest| <= |s|
  {
    var i := SkipDelims(s, 0, delims);
    if i == |s| then
      Tok(None, [])
    else
      var j := SpanUntil(s, i, delims);
      var rest := if j == |s| then [] else s[j + 1..];
      assert EndsWith(s, rest);
      Tok(Some(s[i..j]), rest)
  }

  /** What a token strtok returns is: `s` is some leading delimiters, the
      token, and then either nothing or one delimiter before the rest. So
      every byte of the token is a byte of `s`. */
  lemma StrtokSplits(s: Bytes, delims: set<Byte>)
    ensures Strtok(s, delims).token.Some? ==>
              exists lead :: SplitsAs(s, delims, lead, Strtok(s, delims).token.value, Strtok(s, delims).rest)
    ensures Strtok(s, delims).token.Some? ==> forall b :: b in Strtok(s, delims).token.value ==> b in s
  {
    var i := SkipDelims(s, 0, delims);
    if i < |s| {
      var j := SpanUntil(s, i, delims);
      var token := s[i..j];
      assert SplitsAs(s, delims, i, token, Strtok(s, delims).rest);
      forall b | b in token ensures b in s {
        var k :| 0 <= k < |token| && token[k] == b;
        assert s[i + k] == b;
      }
    }
  }

  /** There is a non-delimiter, later a delimiter, and later again a
      non-delimiter: two tokens can be cut from `s`. */
  predicate HasTwoTokens(s: Bytes, delims: set<Byte>) {
    exists i, j, k :: 0 <= i < j < k < |s| && s[i] !in delims && s[j] in delims && s[k] !in delims
  }

  /** Two successive strtok calls over `s` both return a token exactly when
      `s` holds two delimiter-separated tokens. */
  lemma TwoTokensIff(s: Bytes, delims: set<Byte>)
    ensures (Strtok(s, delims).token.Some? && Strtok(Strtok(s, delims).rest, delims).token.Some?)
            <==> HasTwoTokens(s, delims)
  {
    if Strtok(s, delims).token.Some? && Strtok(Strtok(s, delims).rest, delims).token.Some? {
      TwoTokensFound(s, delims);
    }
    if HasTwoTokens(s, delims) {
      TwoTokensCut(s, delims);
    }
  }

  lemma {:induction false} TwoTokensFound(s: Bytes, delims: set<Byte>)
    requires Strtok(s, delims).token.Some?
    requires Strtok(Strtok(s, delims).rest, delims).token.Some?
    ensures HasTwoTokens(s, delims)
  {
    var i := SkipDelims(s, 0, delims);
    var j := SpanUntil(s, i, delims);
    var rest := Strtok(s, delims).rest;
    assert j < |s| && rest == s[j + 1..];
    var i2 := SkipDelims(rest, 0, delims);
    assert rest[i2] !in delims;
    assert s[j + 1 + i2] == rest[i2];
    assert s[i] !in delims && s[j] in delims && s[j + 1 + i2] !in delims;
  }

  /** A non-delimiter followed later by a delimiter: strtok finds a token
      and what it leaves starts no later than just past that delimiter. */
  lemma StrtokStopsBy(s: Bytes, delims: set<Byte>, a: nat, b: nat)
    requires a < b < |s| && s[a] !in delims && s[b] in delims
    ensures Strtok(s, delims).token.Some?
    ensures |s| - |Strtok(s, delims).rest| <= b + 1
  {
    var i := SkipDelims(s, 0, delims);
    assert i <= a;
    var j := SpanUntil(s, i, delims);
    assert j <= b;
    assert Strtok(s, delims).rest == s[j + 1..];
  }

  lemma TwoTokensCut(s: Bytes, delims: set<Byte>)
    requires HasTwoTokens(s, delims)
    ensures Strtok(s, delims).token.Some?
    ensures Strtok(Strtok(s, delims).rest, delims).token.Some?
  {
    var a, b, c :| 0 <= a < b < c < |s| && s[a] !in delims && s[b] in delims && s[c] !in delims;
    StrtokStopsBy(s, delims, a, b);
    var rest := Strtok(s, delims).rest;
    var off := |s| - |rest|;
    assert rest == s[off..];
    assert rest[c - off] == s[c];
  }

  /** The two-token strtok pattern of `ufile <name> <dir>`: the first token
      of `u`, then the first token of what follows it. */
  function TwoTokens(u: Bytes, delims: set<Byte>): (r: Option<(Bytes, Bytes)>)
    ensures r.Some? <==> HasTwoTokens(u, delims)
    ensures r.Some? ==> |r.value.0| > 0 && NoneIn(r.value.0, delims)
    ensures r.Some? ==> |r.value.1| > 0 && NoneIn(r.value.1, delims)
    ensures r.Some? ==> |r.value.0| + 1 + |r.value.1| <= |u|
    ensures r.Some? && NUL !in u ==> NUL !in r.value.0 && NUL !in r.value.1
  {
    var first := Strtok(u, delims);
    var second := Strtok(first.rest, delims);
    TwoTokensIff(u, delims);
    if first.token.Some? && second.token.Some? then
      TokensWithin(u, delims);
      Some((first.token.value, second.token.value))
    else
      None
  }

  lemma TokensWithin(u: Bytes, delims: set<Byte>)
    requires Strtok(u, delims).token.Some?
    requires Strtok(Strtok(u, delims).rest, delims).token.Some?
    ensures NUL !in u ==> NUL !in Strtok(u, delims).token.value
    ensures NUL !in u ==> NUL !in Strtok(Strtok(u, delims).rest, delims).token.value
  {
    var first := Strtok(u, delims);
    var second := Strtok(first.rest, delims);
    StrtokSplits(u, delims);
    StrtokSplits(first.rest, delims);
    if NUL !in u {
      assert NUL !in first.rest by {
        assert first.rest == u[|u| - |first.rest|..];
      }
    }
  }

  /** Cutting `a`, one delimiter and the rest out of `s` with strtok, when `a`
      is a nonempty token. */
  lemma StrtokOfToken(a: Bytes, sep: Byte, rest: Bytes, delims: set<Byte>)
    requires |a| > 0 && NoneIn(a, delims) && sep in delims
    ensures Strtok(a + [sep] + rest, delims) == Tok(Some(a), rest)
  {
    var s := a + [sep] + rest;
    assert s[0] == a[0];
    assert SkipDelims(s, 0, delims) == 0;
    var j := SpanUntil(s, 0, delims);
    assert s[|a|] == sep;
    assert j == |a|;
    assert s[..|a|] == a;
    assert s[|a| + 1..] == rest;
  }

  /** strtok on a whole nonempty token with nothing after it. */
  lemma StrtokOfLastToken(a: Bytes, delims: set<Byte>)
    requires |a| > 0 && NoneIn(a, delims)
    ensures Strtok(a, delims) == Tok(Some(a), [])
  {
    assert SkipDelims(a, 0, delims) == 0;
    var j := SpanUntil(a, 0, delims);
    assert j == |a|;
    assert a[0..|a|] == a;
  }

  /** strtok with no delimiters, as in strtok(NULL, "\0"): the whole
      remaining text, when there is any. */
  lemma StrtokNoDelims(s: Bytes)
    ensures Strtok(s, {}) == Tok(if s == [] then None else Some(s), [])
  {
    assert SkipDelims(s, 0, {}) == 0;
    assert SpanUntil(s, 0, {}) == |s|;
    assert s[0..|s|] == s;
  }

  /** Two delimiter-free tokens joined by one delimiter split back into
      themselves. */
  lemma TwoTokensOf(a: Bytes, sep: Byte, b: Bytes, delims: set<Byte>)
    requires |a| > 0 && NoneIn(a, delims) && sep in delims
    requires |b| > 0 && NoneIn(b, delims)
    ensures TwoTokens(a + [sep] + b, delims) == Some((a, b))
  {
    StrtokOfToken(a, sep, b, delims);
    StrtokOfLastToken(b, delims);
  }

  /** strrchr(s, c): the index of the last occurrence of `c`, if any. */
  function LastIndexOf(s: Bytes, c: Byte): (r: Option<nat>)
    ensures r.None? <==> c !in s
    ensures r.Some? ==> r.value < |s| && s[r.value] == c && c !in s[r.value + 1..]
  {
    if |s| == 0 then None
    else if s[|s| - 1] == c then Some(|s| - 1)
    else
      var r := LastIndexOf(s[..|s| - 1], c);
      if r.Some? then
        assert s[r.value + 1..] == s[..|s| - 1][r.value + 1..] + [s[|s| - 1]];
        r
      else
        assert s == s[..|s| - 1] + [s[|s| - 1]];
        r
  }

  /** `p` occurs in `s` starting at index `k`. */
  predicate OccursAt(s: Bytes, p: Bytes, k: nat) {
    k + |p| <= |s| && s[k..k + |p|] == p
  }

  /** The first occurrence of `p` in `s` at or after `from`. */
  function FindFrom(s: Bytes, p: Bytes, from: nat): (r: Option<nat>)
    requires from <= |s|
    ensures r.Some? ==> from <= r.value && OccursAt(s, p, r.value)
    ensures r.Some? ==> forall k :: from <= k < r.value ==> !OccursAt(s, p, k)
    ensures r.None? ==> forall k :: from <= k <= |s| ==> !OccursAt(s, p, k)
    decreases |s| - from
  {
    if OccursAt(s, p, from) then Some(from)
    else if from == |s| then None
    else FindFrom(s, p, from + 1)
  }

  /** strstr(s, p): the index of the first occurrence of `p`, if any. */
  function Strstr(s: Bytes, p: Bytes): (r: Option<nat>)
    ensures r.Some? ==> OccursAt(s, p, r.value)
    ensures r.Some? ==> forall k :: 0 <= k < r.value ==> !OccursAt(s, p, k)
    ensures r.None? <==> forall k :: 0 <= k <= |s| ==> !OccursAt(s, p, k)
  {
    FindFrom(s, p, 0)
  }

  /** memmove(buf + dst, buf + src, len): the `len` bytes at `src`, as they
      were before the call, land at `dst`; nothing else changes. */
  function Memmove(buf: Bytes, dst: nat, src: nat, len: nat): (r: Bytes)
    requires dst + len <= |buf| && src + len <= |buf|
    ensures |r| == |buf|
    ensures forall i :: dst <= i < dst + len ==> r[i] == buf[src + (i - dst)]
    ensures forall i :: 0 <= i < |buf| && !(dst <= i < dst + len) ==> r[i] == buf[i]
  {
    buf[..dst] + buf[src..src + len] + buf[dst + len..]
  }

  /** The first `n` bytes of `s`, padded with NUL up to `n`. */
  function NulPadded(s: Bytes, n: nat): (p: Bytes)
    ensures |p| == n
    ensures forall k :: 0 <= k < n ==> p[k] == if k < |s| then s[k] else NUL
  {
    if n <= |s| then s[..n] else s + seq(n - |s|, _ => NUL)
  }

  /** strncpy(buf + at, src, n): the first `n` bytes of the C string `src`,
      padded with NUL up to `n`; nothing else changes. */
  function Strncpy(buf: Bytes, at: nat, src: Bytes, n: nat): (r: Bytes)
    requires at + n <= |buf|
    ensures |r| == |buf|
    ensures forall i :: at <= i < at + n && i - at < |CString(src)| ==> r[i] == CString(src)[i - at]
    ensures forall i :: at <= i < at + n && i - at >= |CString(src)| ==> r[i] == NUL
    ensures forall i :: 0 <= i < |buf| && !(at <= i < at + n) ==> r[i] == buf[i]
  {
    var padded := NulPadded(CString(src), n);
    var r := buf[..at] + padded + buf[at + n..];
    assert forall i :: at <= i < at + n ==> r[i] == padded[i - at];
    assert forall i :: 0 <= i < |buf| && !(at <= i < at + n) ==> r[i] == buf[i];
    r
  }

  /** The bytes of a sequence of chunks, in order. */
  function Concat(parts: seq<Bytes>): Bytes
  {
    if |parts| == 0 then [] else parts[0] + Concat(parts[1..])
  }

  lemma {:induction false} ConcatAppend(a: seq<Bytes>, b: seq<Bytes>)
    ensures Concat(a + b) == Concat(a) + Concat(b)
  {
    if |a| == 0 {
      assert a + b == b;
    } else {
      assert (a + b)[1..] == a[1..] + b;
      ConcatAppend(a[1..], b);
    }
  }

  /** What successive recv(sock, buf, BUF_SIZE, 0) calls return before the
      first one that returns 0 or fails: non-empty pieces of at most
      BUF_SIZE bytes. */
  predicate RecvStream(chunks: seq<Bytes>) {
    forall c :: c in chunks ==> 0 < |c| <= BUF_SIZE
  }

  /** A read loop's chunks: `data` cut into pieces of `size` bytes, the last
      one possibly shorter; no piece is empty. */
  function Chunks(data: Bytes, size: nat): (r: seq<Bytes>)
    requires size > 0
    ensures Concat(r) == data
    ensures forall k :: 0 <= k < |r| ==> 0 < |r[k]| <= size
    ensures forall k :: 0 <= k < |r| - 1 ==> |r[k]| == size
    ensures |data| == 0 <==> |r| == 0
    decreases |data|
  {
    if |data| == 0 then []
    else if |data| <= size then [data]
    else [data[..size]] + Chunks(data[size..], size)
  }
}

=== FILE: filesystem.dfy ===
/** The filesystem the servers and the client act on, as a value: regular
    files by path and a set of directories. Paths are compared as strings
    (no normalisation). Whatever the operating system decides on its own
    (a mkdir or open refused for a reason other than EEXIST, a short fwrite,
    a refused connection) comes from an `Env` oracle. */
module FileSystem {
  import opened CStrings

  type Path = Bytes

  datatype Fs = Fs(files: map<Path, Bytes>, dirs: set<Path>)

  /** The oracle: paths whose mkdir fails with an error other than EEXIST,
      paths whose open fails, fwrite calls (numbered per open file, from 0)
      that write fewer bytes than asked (the count they write), and the ports
      a connect reaches. */
  datatype Env = Env(
    mkdirDenied: set<Path>,
    openDenied: set<Path>,
    shortWrites: map<nat, nat>,
    reachable: set<int>)

  /** Nothing is both a file and a directory, and the empty path names
      nothing. */
  predicate Valid(fs: Fs) {
    fs.files.Keys !! fs.dirs && [] !in fs.files && [] !in fs.dirs
  }

  predicate Exists(fs: Fs, p: Path) {
    p in fs.files || p in fs.dirs
  }

  /** mkdir can create `p` when it does not exist yet (mkdir("") always
      fails with ENOENT). */
  predicate Creatable(env: Env, p: Path) {
    p != [] && p !in env.mkdirDenied
  }

  datatype MkdirStatus = Created | AlreadyExists | Refused

  datatype MkdirResult = MkdirResult(status: MkdirStatus, fs: Fs)

  /** mkdir(p, 0755): EEXIST when anything is at `p`; otherwise the
      directory is made unless the oracle refuses it. */
  function Mkdir(fs: Fs, env: Env, p: Path): (r: MkdirResult)
    ensures r.status == AlreadyExists <==> Exists(fs, p)
    ensures r.status == Created <==> !Exists(fs, p) && Creatable(env, p)
    ensures r.fs.files == fs.files
    ensures r.fs.dirs == if r.status == Created then fs.dirs + {p} else fs.dirs
  {
    if Exists(fs, p) then MkdirResult(AlreadyExists, fs)
    else if !Creatable(env, p) then MkdirResult(Refused, fs)
    else MkdirResult(Created, fs.(dirs := fs.dirs + {p}))
  }

  /** The result of a walk of mkdir calls: whether it got through (make_dirs
      returned 0), how many mkdir calls it made, and the filesystem after. */
  datatype DirsResult = DirsResult(ok: bool, tried: nat, fs: Fs)

  /** One mkdir per path of `ps`, in order, treating EEXIST as success and
      stopping at the first other failure. */
  function MkdirAll(fs: Fs, env: Env, ps: seq<Path>): (r: DirsResult)
    ensures r.fs.files == fs.files
    ensures fs.dirs <= r.fs.dirs
    ensures r.tried <= |ps|
    ensures r.ok ==> r.tried == |ps|
    ensures !r.ok ==> 0 < r.tried && !Exists(fs, ps[r.tried - 1]) && !Creatable(env, ps[r.tried - 1])
    decreases |ps|
  {
    if |ps| == 0 then
      DirsResult(true, 0, fs)
    else
      var m := Mkdir(fs, env, ps[0]);
      if m.status == Refused then
        DirsResult(false, 1, fs)
      else
        var rest := MkdirAll(m.fs, env, ps[1..]);
        assert rest.tried > 0 ==> ps[1..][rest.tried - 1] == ps[rest.tried];
        assert !Exists(m.fs, ps[rest.tried]) ==> !Exists(fs, ps[rest.tried]);
        DirsResult(rest.ok, rest.tried + 1, rest.fs)
  }

  /** Mkdir of the first path leaves every other path as creatable or
      existing as it was. */
  lemma MkdirKeepsReach(fs: Fs, env: Env, p: Path)
    requires Mkdir(fs, env, p).status != Refused
    ensures forall q :: Exists(Mkdir(fs, env, p).fs, q) || Creatable(env, q) <==> Exists(fs, q) || Creatable(env, q)
    ensures Exists(Mkdir(fs, env, p).fs, p)
  {
  }

  /** The walk gets through exactly when every path exists already or can be
      created, and every mkdir before the one that failed went through. */
  lemma {:induction false} MkdirAllSucceeds(fs: Fs, env: Env, ps: seq<Path>)
    ensures MkdirAll(fs, env, ps).ok <==> forall k :: 0 <= k < |ps| ==> Exists(fs, ps[k]) || Creatable(env, ps[k])
    ensures forall k :: 0 <= k < MkdirAll(fs, env, ps).tried - 1 ==> Exists(fs, ps[k]) || Creatable(env, ps[k])
    decreases |ps|
  {
    if |ps| > 0 {
      var m := Mkdir(fs, env, ps[0]);
      if m.status != Refused {
        var rest := MkdirAll(m.fs, env, ps[1..]);
        MkdirKeepsReach(fs, env, ps[0]);
        MkdirAllSucceeds(m.fs, env, ps[1..]);
        assert forall k :: 1 <= k < |ps| ==> ps[k] == ps[1..][k - 1];
      }
    }
  }

  /** The directories the walk leaves behind: those there before, and each
      path it reached that was not a file and that mkdir may create. */
  lemma {:induction false} MkdirAllDirs(fs: Fs, env: Env, ps: seq<Path>)
    ensures var r := MkdirAll(fs, env, ps);
            r.fs.dirs == fs.dirs + (set p | p in ps[..r.tried] && p !in fs.files && Creatable(env, p))
    decreases |ps|
  {
    if |ps| > 0 {
      var m := Mkdir(fs, env, ps[0]);
      if m.status == Refused {
        assert ps[..1] == [ps[0]];
      } else {
        var rest := MkdirAll(m.fs, env, ps[1..]);
        MkdirAllDirs(m.fs, env, ps[1..]);
        assert m.fs.files == fs.files;
        assert m.fs.dirs == fs.dirs + (if ps[0] !in fs.files && Creatable(env, ps[0]) then {ps[0]} else {});
        assert ps[..rest.tried + 1] == [ps[0]] + ps[1..][..rest.tried];
      }
    }
  }

  /** After a walk that got through, every path exists. */
  lemma {:induction false} MkdirAllReaches(fs: Fs, env: Env, ps: seq<Path>)
    ensures MkdirAll(fs, env, ps).ok ==> forall k :: 0 <= k < |ps| ==> Exists(MkdirAll(fs, env, ps).fs, ps[k])
    decreases |ps|
  {
    if |ps| > 0 && MkdirAll(fs, env, ps).ok {
      var m := Mkdir(fs, env, ps[0]);
      var rest := MkdirAll(m.fs, env, ps[1..]);
      MkdirAllReaches(m.fs, env, ps[1..]);
      assert Exists(rest.fs, ps[0]) by {
        assert Exists(m.fs, ps[0]);
      }
      assert forall k :: 1 <= k < |ps| ==> ps[k] == ps[1..][k - 1];
    }
  }

  /** A walk over paths that all exist already changes nothing. */
  lemma {:induction false} MkdirAllExisting(fs: Fs, env: Env, ps: seq<Path>)
    requires forall k :: 0 <= k < |ps| ==> Exists(fs, ps[k])
    ensures MkdirAll(fs, env, ps) == DirsResult(true, |ps|, fs)
  {
    if |ps| > 0 {
      assert Exists(fs, ps[0]);
      assert forall k :: 0 <= k < |ps[1..]| ==> ps[1..][k] == ps[k + 1];
      MkdirAllExisting(fs, env, ps[1..]);
    }
  }

  /** The copy make_dirs works on: the path cut to the buffer by snprintf,
      with one trailing '/' removed. */
  function DirTarget(path: Path): (t: Path)
    ensures t == FitBuffer(path) || t + "/" == FitBuffer(path)
    ensures t + "/" == FitBuffer(path) <==> |FitBuffer(path)| > 0 && FitBuffer(path)[|FitBuffer(path)| - 1] == '/'
  {
    var t := FitBuffer(path);
    if |t| > 0 && t[|t| - 1] == '/' then t[..|t| - 1] else t
  }

  /** The prefixes of `t` that end just before a '/' at index `from` or
      later, shortest first. */
  function SlashPrefixes(t: Path, from: nat): (r: seq<Path>)
    ensures forall k :: 0 <= k < |r| ==> from <= |r[k]| < |t| && r[k] == t[..|r[k]|] && t[|r[k]|] == '/'
    ensures forall k, l :: 0 <= k < l < |r| ==> |r[k]| < |r[l]|
    ensures forall i :: from <= i < |t| && t[i] == '/' ==> t[..i] in r
    decreases |t| - from
  {
    if from >= |t| then []
    else if t[from] == '/' then [t[..from]] + SlashPrefixes(t, from + 1)
    else SlashPrefixes(t, from + 1)
  }

  /** The directories make_dirs asks mkdir for, in order: every prefix ending
      just before a '/' at index 1 or later (so a leading '/' is skipped),
      then the whole path without its trailing '/'. */
  function DirAttempts(path: Path): (r: seq<Path>)
    ensures |r| > 0 && r[|r| - 1] == DirTarget(path)
    ensures forall k :: 0 <= k < |r| - 1 ==> 1 <= |r[k]| < |DirTarget(path)|
    ensures forall k :: 0 <= k < |r| - 1 ==> r[k] == DirTarget(path)[..|r[k]|] && DirTarget(path)[|r[k]|] == '/'
    ensures forall k, l :: 0 <= k < l < |r| ==> |r[k]| < |r[l]|
    ensures forall i :: 1 <= i < |DirTarget(path)| && DirTarget(path)[i] == '/' ==> DirTarget(path)[..i] in r
  {
    var t := DirTarget(path);
    var pre := SlashPrefixes(t, 1);
    assert forall k :: 0 <= k < |pre| ==> (pre + [t])[k] == pre[k];
    pre + [t]
  }

  /** make_dirs(path): one mkdir per DirAttempts(path); returns 0 (ok) unless
      a mkdir failed with something other than EEXIST. The callers never pass
      an empty path. */
  function MakeDirs(fs: Fs, env: Env, path: Path): (r: DirsResult)
    requires |path| > 0
    ensures r.fs.files == fs.files
    ensures r.tried <= |DirAttempts(path)|
    ensures r.ok <==> forall p :: p in DirAttempts(path) ==> Exists(fs, p) || Creatable(env, p)
    ensures r.ok ==> forall p :: p in DirAttempts(path) ==> Exists(r.fs, p)
    ensures r.fs.dirs == fs.dirs + (set p | p in DirAttempts(path)[..r.tried] && p !in fs.files && Creatable(env, p))
    ensures fs.dirs <= r.fs.dirs
    ensures Valid(fs) ==> Valid(r.fs)
  {
    var ps := DirAttempts(path);
    MkdirAllSucceeds(fs, env, ps);
    MkdirAllDirs(fs, env, ps);
    MkdirAllReaches(fs, env, ps);
    MkdirAll(fs, env, ps)
  }

  /** Calling make_dirs again right after it returned 0 returns 0 again and
      changes nothing, since every directory now exists (EEXIST). */
  lemma MakeDirsIdempotent(fs: Fs, env: Env, path: Path)
    requires |path| > 0
    requires MakeDirs(fs, env, path).ok
    ensures MakeDirs(MakeDirs(fs, env, path).fs, env, path).ok
    ensures MakeDirs(MakeDirs(fs, env, path).fs, env, path).fs == MakeDirs(fs, env, path).fs
  {
    var ps := DirAttempts(path);
    var fs' := MakeDirs(fs, env, path).fs;
    assert forall k :: 0 <= k < |ps| ==> Exists(fs', ps[k]);
    MkdirAllExisting(fs', env, ps);
  }

  /** snprintf(fullpath, BUF_SIZE, "%s/%s", dir, name): the joined path,
      cut to fit the buffer. */
  function JoinPath(dir: Path, name: Bytes): (p: Path)
    ensures p <= dir + "/" + name
    ensures |p| < BUF_SIZE
    ensures |dir| + 1 + |name| < BUF_SIZE ==> p == dir + "/" + name
    ensures |dir| + 1 < BUF_SIZE ==> dir + "/" <= p
  {
    FitBuffer(dir + "/" + name)
  }

  /** open or fopen for writing: refused on the empty path, on a directory
      or by the oracle; otherwise the file exists afterwards, emptied when
      `truncate` (O_TRUNC, "wb") and keeping its bytes otherwise. */
  function OpenWrite(fs: Fs, env: Env, p: Path, truncate: bool): (r: Option<Fs>)
    ensures r.None? <==> p == [] || p in fs.dirs || p in env.openDenied
    ensures r.Some? ==> r.value.dirs == fs.dirs && r.value.files.Keys == fs.files.Keys + {p}
    ensures r.Some? ==> r.value.files[p] == if truncate || p !in fs.files then [] else fs.files[p]
    ensures r.Some? ==> forall q :: q in fs.files && q != p ==> r.value.files[q] == fs.files[q]
    ensures r.Some? && Valid(fs) ==> Valid(r.value)
  {
    if p == [] || p in fs.dirs || p in env.openDenied then None
    else if truncate || p !in fs.files then Some(fs.(files := fs.files[p := []]))
    else Some(fs)
  }

  /** After make_dirs(dir), the file `<dir>/<name>` opens for writing. */
  predicate Lands(fs: Fs, env: Env, dir: Path, name: Bytes)
    requires |dir| > 0
  {
    MakeDirs(fs, env, dir).ok && OpenWrite(MakeDirs(fs, env, dir).fs, env, JoinPath(dir, name), true).Some?
  }

  /** make_dirs(dir), then fopen of `<dir>/<name>` with "wb" and the writes
      that leave `data` in it. When either step fails, the files are as they
      were (the directories made so far stay). */
  function WriteFileIn(fs: Fs, env: Env, dir: Path, name: Bytes, data: Bytes): (r: Fs)
    requires |dir| > 0
    ensures r.dirs == MakeDirs(fs, env, dir).fs.dirs
    ensures !Lands(fs, env, dir, name) ==> r.files == fs.files
    ensures Lands(fs, env, dir, name) ==>
              r.files.Keys == fs.files.Keys + {JoinPath(dir, name)} && r.files[JoinPath(dir, name)] == data
    ensures forall p :: p in fs.files && p != JoinPath(dir, name) ==> p in r.files && r.files[p] == fs.files[p]
    ensures Valid(fs) ==> Valid(r)
  {
    var made := MakeDirs(fs, env, dir);
    if !made.ok then made.fs
    else
      var target := JoinPath(dir, name);
      match OpenWrite(made.fs, env, target, true)
      case None => made.fs
      case Some(held) => held.(files := held.files[target := data])
  }

  /** Once make_dirs got through, it gets through again on what the write
      left and changes nothing. */
  lemma MakeDirsAfterWrite(fs: Fs, env: Env, dir: Path, name: Bytes, data: Bytes)
    requires |dir| > 0 && MakeDirs(fs, env, dir).ok
    ensures MakeDirs(WriteFileIn(fs, env, dir, name, data), env, dir)
            == DirsResult(true, |DirAttempts(dir)|, WriteFileIn(fs, env, dir, name, data))
  {
    var made := MakeDirs(fs, env, dir).fs;
    var once := WriteFileIn(fs, env, dir, name, data);
    var ps := DirAttempts(dir);
    forall k | 0 <= k < |ps| ensures Exists(once, ps[k]) {
      assert ps[k] in ps;
      assert Exists(made, ps[k]);
    }
    MkdirAllExisting(once, env, ps);
  }

  /** Writing the same file with the same bytes twice leaves the filesystem
      as writing it once: the directories exist by then (EEXIST), and "wb"
      truncates before the same bytes go in. */
  lemma WriteFileInIdempotent(fs: Fs, env: Env, dir: Path, name: Bytes, data: Bytes)
    requires |dir| > 0 && MakeDirs(fs, env, dir).ok
    ensures WriteFileIn(WriteFileIn(fs, env, dir, name, data), env, dir, name, data)
            == WriteFileIn(fs, env, dir, name, data)
  {
    var made := MakeDirs(fs, env, dir).fs;
    var once := WriteFileIn(fs, env, dir, name, data);
    var twice := WriteFileIn(once, env, dir, name, data);
    MakeDirsAfterWrite(fs, env, dir, name, data);
    assert twice.dirs == once.dirs;
    var target := JoinPath(dir, name);
    if Lands(fs, env, dir, name) {
      assert OpenWrite(once, env, target, true).Some? by {
        assert once.dirs == made.dirs;
      }
      assert Lands(once, env, dir, name);
      assert twice.files.Keys == once.files.Keys;
      forall p | p in once.files ensures twice.files[p] == once.files[p] {
      }
      assert twice.files == once.files;
    } else {
      assert once == made;
      assert !Lands(once, env, dir, name);
    }
  }

  /** fopen(p, "rb") and a read to the end: a file gives its bytes, a
      directory opens but reads nothing, anything else fails. */
  function OpenRead(fs: Fs, env: Env, p: Path): (r: Option<Bytes>)
    ensures r.Some? <==> p !in env.openDenied && Exists(fs, p)
    ensures r.Some? ==> r.value == if p in fs.files then fs.files[p] else []
  {
    if p in env.openDenied then None
    else if p in fs.files then Some(fs.files[p])
    else if p in fs.dirs then Some([])
    else None
  }

  datatype RemoveResult = RemoveResult(ok: bool, fs: Fs)

  /** Some file or directory lies below `p`. */
  predicate HasEntriesBelow(fs: Fs, p: Path) {
    (exists q :: q in fs.files && p + ['/'] <= q) || (exists q :: q in fs.dirs && p + ['/'] <= q)
  }

  /** remove(p): deletes a file, or a directory with nothing below it. */
  function Remove(fs: Fs, p: Path): (r: RemoveResult)
    ensures r.ok <==> p in fs.files || (p in fs.dirs && !HasEntriesBelow(fs, p))
    ensures Valid(fs) ==> Valid(r.fs)
    ensures r.ok && Valid(fs) ==> !Exists(r.fs, p)
    ensures !r.ok ==> r.fs == fs
    ensures forall q :: q != p ==> (q in r.fs.files <==> q in fs.files) && (q in r.fs.dirs <==> q in fs.dirs)
    ensures forall q :: q in r.fs.files ==> q in fs.files && r.fs.files[q] == fs.files[q]
  {
    if p in fs.files then RemoveResult(true, fs.(files := fs.files - {p}))
    else if p in fs.dirs && !HasEntriesBelow(fs, p) then RemoveResult(true, fs.(dirs := fs.dirs - {p}))
    else RemoveResult(false, fs)
  }

  /** What the `n`-th fwrite call on a file puts on disk out of `piece`. */
  function Written(env: Env, n: nat, piece: Bytes): (w: Bytes)
    ensures w <= piece
    ensures |w| < |piece| <==> n in env.shortWrites && env.shortWrites[n] < |piece|
    ensures |w| < |piece| ==> |w| == env.shortWrites[n]
  {
    if n in env.shortWrites && env.shortWrites[n] < |piece| then piece[..env.shortWrites[n]] else piece
  }

  /** Every fwrite call from the `n`-th on writes its whole piece. */
  predicate WritesComplete(env: Env, pieces: seq<Bytes>, n: nat) {
    forall k :: 0 <= k < |pieces| ==> Written(env, n + k, pieces[k]) == pieces[k]
  }

  lemma WritesCompleteTail(env: Env, pieces: seq<Bytes>, n: nat)
    requires |pieces| > 0 && WritesComplete(env, pieces, n)
    ensures WritesComplete(env, pieces[1..], n + 1)
  {
    forall k | 0 <= k < |pieces| - 1
      ensures Written(env, n + 1 + k, pieces[1..][k]) == pieces[1..][k]
    {
      assert pieces[1..][k] == pieces[k + 1];
      assert Written(env, n + (k + 1), pieces[k + 1]) == pieces[k + 1];
    }
  }

  /** fwrite each piece in turn (calls numbered from `n`), stopping after the
      first short write. */
  function WriteStopping(env: Env, pieces: seq<Bytes>, n: nat): (r: Bytes)
    ensures r <= Concat(pieces)
    ensures WritesComplete(env, pieces, n) ==> r == Concat(pieces)
    decreases |pieces|
  {
    if |pieces| == 0 then []
    else
      var w := Written(env, n, pieces[0]);
      if |w| < |pieces[0]| then w
      else
        assert WritesComplete(env, pieces, n) ==> WritesComplete(env, pieces[1..], n + 1) by {
          if WritesComplete(env, pieces, n) {
            WritesCompleteTail(env, pieces, n);
          }
        }
        w + WriteStopping(env, pieces[1..], n + 1)
  }

  /** After a short write nothing else is written: the file holds the pieces
      before it and what that call managed to write. */
  lemma {:induction false} ShortWriteStops(env: Env, pieces: seq<Bytes>, n: nat, f: nat)
    requires f < |pieces|
    requires WritesComplete(env, pieces[..f], n)
    requires |Written(env, n + f, pieces[f])| < |pieces[f]|
    ensures WriteStopping(env, pieces, n) == Concat(pieces[..f]) + Written(env, n + f, pieces[f])
  {
    var last := Written(env, n + f, pieces[f]);
    if f == 0 {
      assert pieces[..0] == [];
    } else {
      var head := pieces[..f];
      var q := pieces[1..];
      assert head[0] == pieces[0] && head[1..] == q[..f - 1];
      assert Written(env, n + 0, head[0]) == head[0];
      WritesCompleteTail(env, head, n);
      assert q[f - 1] == pieces[f];
      ShortWriteStops(env, q, n + 1, f - 1);
      assert WriteStopping(env, q, n + 1) == Concat(q[..f - 1]) + last;
      calc {
        WriteStopping(env, pieces, n);
        pieces[0] + WriteStopping(env, q, n + 1);
        pieces[0] + (Concat(q[..f - 1]) + last);
        (pieces[0] + Concat(q[..f - 1])) + last;
        Concat(head) + last;
      }
    }
  }

  /** fwrite each piece in turn (calls numbered from `n`), ignoring short
      writes and carrying on with the next piece. */
  function WriteIgnoring(env: Env, pieces: seq<Bytes>, n: nat): (r: Bytes)
    ensures |r| <= |Concat(pieces)|
    ensures WritesComplete(env, pieces, n) ==> r == Concat(pieces)
    decreases |pieces|
  {
    if |pieces| == 0 then []
    else
      assert WritesComplete(env, pieces, n) ==> WritesComplete(env, pieces[1..], n + 1) by {
        if WritesComplete(env, pieces, n) {
          WritesCompleteTail(env, pieces, n);
        }
      }
      Written(env, n, pieces[0]) + WriteIgnoring(env, pieces[1..], n + 1)
  }

  lemma Regroup(x: Bytes, a: Bytes, b: Bytes, c: Bytes)
    ensures x + (a + b + c) == (x + a) + b + c
  {
  }

  lemma IgnoringUnfold(env: Env, pieces: seq<Bytes>, n: nat)
    requires |pieces| > 0
    ensures WriteIgnoring(env, pieces, n) == Written(env, n, pieces[0]) + WriteIgnoring(env, pieces[1..], n + 1)
  {
  }

  /** ShortWriteIgnored's requirements, moved along to the pieces after the
      first (`q`, numbered from `m`, short at `g`). */
  lemma ShortWriteShift(env: Env, pieces: seq<Bytes>, n: nat, f: nat, q: seq<Bytes>, m: nat, g: nat)
    requires 0 < f < |pieces| && q == pieces[1..] && m == n + 1 && g == f - 1
    requires WritesComplete(env, pieces[..f], n)
    requires WritesComplete(env, pieces[f + 1..], n + f + 1)
    ensures Written(env, n, pieces[0]) == pieces[0]
    ensures g < |q|
    ensures WritesComplete(env, q[..g], m)
    ensures WritesComplete(env, q[g + 1..], m + g + 1)
  {
    var head := pieces[..f];
    assert head[0] == pieces[0] && head[1..] == q[..g];
    assert Written(env, n + 0, head[0]) == head[0];
    WritesCompleteTail(env, head, n);
    assert q[g + 1..] == pieces[f + 1..];
  }

  /** One step of ShortWriteIgnored: the result for `q`, the pieces after
      the first, extends to `pieces` when the first write is whole. */
  lemma ShortWriteIgnoredStep(env: Env, pieces: seq<Bytes>, n: nat, f: nat, q: seq<Bytes>, m: nat, g: nat)
    requires 0 < f < |pieces| && q == pieces[1..] && m == n + 1 && g == f - 1
    requires Written(env, n, pieces[0]) == pieces[0]
    requires WriteIgnoring(env, q, m) == Concat(q[..g]) + Written(env, m + g, q[g]) + Concat(q[g + 1..])
    ensures WriteIgnoring(env, pieces, n) == Concat(pieces[..f]) + Written(env, n + f, pieces[f]) + Concat(pieces[f + 1..])
  {
    var head := pieces[..f];
    assert head[0] == pieces[0] && head[1..] == q[..g];
    assert Concat(head) == pieces[0] + Concat(q[..g]);
    assert q[g] == pieces[f] && m + g == n + f;
    assert q[g + 1..] == pieces[f + 1..];
    IgnoringUnfold(env, pieces, n);
    Regroup(pieces[0], Concat(q[..g]), Written(env, n + f, pieces[f]), Concat(pieces[f + 1..]));
  }

  /** When only the write numbered `n + f` is short, the bytes before it and
      every piece after it still land whole: the short write costs only the
      tail of its own piece. */
  lemma {:induction false} ShortWriteIgnored(env: Env, pieces: seq<Bytes>, n: nat, f: nat)
    requires f < |pieces|
    requires WritesComplete(env, pieces[..f], n)
    requires WritesComplete(env, pieces[f + 1..], n + f + 1)
    ensures WriteIgnoring(env, pieces, n) == Concat(pieces[..f]) + Written(env, n + f, pieces[f]) + Concat(pieces[f + 1..])
  {
    if f == 0 {
      IgnoringUnfold(env, pieces, n);
      assert pieces[..0] == [] && pieces[1..] == pieces[f + 1..];
    } else {
      var q, m, g := pieces[1..], n + 1, f - 1;
      ShortWriteShift(env, pieces, n, f, q, m, g);
      ShortWriteIgnored(env, q, m, g);
      ShortWriteIgnoredStep(env, pieces, n, f, q, m, g);
    }
  }
}

=== FILE: interop.dfy ===
/** Where the client and the coordinator do not agree. Each program is
    modelled on its own terms; these lemmas only record that what one of
    them sends is not what the other expects. */
module Interop {
  import opened CStrings
  import Client
  import Coordinator

  /** The client's upload header starts `ufile` and a newline, so the
      coordinator, which wants `ufile` and a space, never takes it for an
      upload, whatever the name and directory. */
  lemma ClientUploadNotRecognised(filename: Bytes, dest: Bytes)
    ensures !Coordinator.ParseCommand(Client.UploadHeader(filename, dest)).Upload?
  {
    var h := Client.UploadHeader(filename, dest);
    var whole := "ufile\n" + filename + "\n" + dest + "\n";
    assert h[..6] == whole[..6] == "ufile\n";
    var s := CString(h);
    assert NUL !in h[..6];
    assert 6 <= |s|;
    assert s[5] == h[5] == '\n';
  }
}

=== FILE: pdfnode.dfy ===
/** Spdf.c: the PDF storage node. Each connection carries one request in its
    first received buffer: `dfile <path>` sends a file back, `rmfile <path>`
    deletes one, and anything else is read as an upload header
    `<name>\n<dir>\n<first bytes>` followed by the rest of the file. */
module PdfNode {
  import opened CStrings
  import opened FileSystem

  /** The request handle_client's if-chain picks from the first buffer. */
  datatype Request =
    | Fetch(path: Bytes)
    | Delete(path: Bytes)
    | Store(filename: Bytes, dest: Bytes, initial: Option<Bytes>)
    | Invalid

  /** Spdf.c:98-122 over the received C string `s`: `dfile ` takes the
      argument up to the first newline, `rmfile ` takes the rest verbatim,
      and an upload needs two newline-separated tokens; whatever follows the
      second one is the first part of the file. */
  function ParseRequest(s: Bytes): (q: Request)
    requires NUL !in s
    ensures q.Fetch? <==> "dfile " <= s
    ensures q.Fetch? ==> 6 + |q.path| <= |s| && s[6..6 + |q.path|] == q.path && NoneIn(q.path, NEWLINE)
    ensures q.Fetch? && 6 + |q.path| < |s| ==> s[6 + |q.path|] == '\n'
    ensures q.Delete? <==> !("dfile " <= s) && "rmfile " <= s
    ensures q.Delete? ==> s == "rmfile " + q.path
    ensures q.Invalid? <==> !("dfile " <= s) && !("rmfile " <= s) && !HasTwoTokens(s, NEWLINE)
    ensures q.Store? ==> |q.filename| > 0 && NoneIn(q.filename, NEWLINE) && NUL !in q.filename
    ensures q.Store? ==> |q.dest| > 0 && NoneIn(q.dest, NEWLINE) && NUL !in q.dest
    ensures q.Store? && q.initial.Some? ==> |q.initial.value| > 0 && EndsWith(s, q.initial.value)
  {
    if "dfile " <= s then
      var arg := s[6..];
      Fetch(arg[..Strcspn(arg, NEWLINE)])
    else if "rmfile " <= s then
      assert s == "rmfile " + s[7..];
      Delete(s[7..])
    else ParseStore(s)
  }

  /** Spdf.c:114-122: strtok(buffer, "\n") twice, then strtok(NULL, "\0")
      for whatever is left. */
  function ParseStore(s: Bytes): (q: Request)
    requires NUL !in s
    ensures q.Store? || q.Invalid?
    ensures q.Invalid? <==> !HasTwoTokens(s, NEWLINE)
    ensures q.Store? ==> |q.filename| > 0 && NoneIn(q.filename, NEWLINE) && NUL !in q.filename
    ensures q.Store? ==> |q.dest| > 0 && NoneIn(q.dest, NEWLINE) && NUL !in q.dest
    ensures q.Store? && q.initial.Some? ==> |q.initial.value| > 0 && EndsWith(s, q.initial.value)
  {
    var first := Strtok(s, NEWLINE);
    var second := Strtok(first.rest, NEWLINE);
    TwoTokensIff(s, NEWLINE);
    if first.token.None? || second.token.None? then Invalid
    else
      TokensWithin(s, NEWLINE);
      StrtokNoDelims(second.rest);
      EndsWithTrans(s, first.rest, second.rest);
      Store(first.token.value, second.token.value, Strtok(second.rest, {}).token)
  }

  /** A keyword with no newline is not a prefix of a line whose first
      newline comes right after a word it is not a prefix of. */
  lemma KeywordNotBeforeNewline(kw: Bytes, word: Bytes, tail: Bytes)
    requires NoneIn(kw, NEWLINE) && !(kw <= word)
    ensures !(kw <= word + "\n" + tail)
  {
    var line := word + "\n" + tail;
    if |kw| > |word| {
      assert line[|word|] == '\n';
    }
  }

  /** The upload header `<name>\n<dir>\n<bytes>` reads back as that upload;
      no bytes after the header means no initial part. */
  lemma StoreRequestRoundTrip(filename: Bytes, dest: Bytes, content: Bytes)
    requires |filename| > 0 && NoneIn(filename, NEWLINE) && NUL !in filename
    requires |dest| > 0 && NoneIn(dest, NEWLINE) && NUL !in dest
    requires NUL !in content
    requires !("dfile " <= filename) && !("rmfile " <= filename)
    ensures NUL !in filename + "\n" + dest + "\n" + content
    ensures ParseRequest(filename + "\n" + dest + "\n" + content)
            == Store(filename, dest, if content == [] then None else Some(content))
  {
    var tail := dest + "\n" + content;
    var line := filename + "\n" + dest + "\n" + content;
    assert line == filename + "\n" + tail;
    assert NUL !in line;
    KeywordNotBeforeNewline("dfile ", filename, tail);
    KeywordNotBeforeNewline("rmfile ", filename, tail);
    ParseStoreOf(filename, dest, content);
  }

  lemma ParseStoreOf(filename: Bytes, dest: Bytes, content: Bytes)
    requires |filename| > 0 && NoneIn(filename, NEWLINE)
    requires |dest| > 0 && NoneIn(dest, NEWLINE)
    requires NUL !in filename + "\n" + (dest + "\n" + content)
    ensures ParseStore(filename + "\n" + (dest + "\n" + content))
            == Store(filename, dest, if content == [] then None else Some(content))
  {
    var tail := dest + "\n" + content;
    StrtokOfToken(filename, '\n', tail, NEWLINE);
    StrtokOfToken(dest, '\n', content, NEWLINE);
    StrtokNoDelims(content);
  }

  /** `dfile <path>`, with or without a newline and more after it, asks for
      exactly that path. */
  lemma FetchRequestRoundTrip(path: Bytes, tail: Bytes)
    requires NoneIn(path, NEWLINE) && NUL !in path && NUL !in tail
    ensures NUL !in "dfile " + path && NUL !in "dfile " + path + "\n" + tail
    ensures ParseRequest("dfile " + path) == Fetch(path)
    ensures ParseRequest("dfile " + path + "\n" + tail) == Fetch(path)
  {
    var s := "dfile " + path;
    assert s[6..] == path;
    var t := "dfile " + path + "\n" + tail;
    assert t[6..] == path + "\n" + tail;
    assert (path + "\n" + tail)[|path|] == '\n';
  }

  /** `rmfile <path>` asks to delete exactly `path`, newline included. */
  lemma DeleteRequestRoundTrip(path: Bytes)
    requires NUL !in path
    ensures NUL !in "rmfile " + path
    ensures ParseRequest("rmfile " + path) == Delete(path)
  {
    assert ("rmfile " + path)[0] == 'r';
  }

  /** What the node sends back on the connection, and whether it shut down
      its sending side. */
  datatype Reply = Reply(sent: seq<Bytes>, halfClosed: bool)

  /** handle_dfile (Spdf.c:217-247): open the file, send it in fread-sized
      pieces, shut down the sending side. A file that does not open gets no
      reply at all, and the connection just closes. */
  function FetchReply(fs: Fs, env: Env, path: Bytes): (r: Reply)
    ensures r.halfClosed <==> OpenRead(fs, env, path).Some?
    ensures !r.halfClosed ==> r.sent == []
    ensures r.halfClosed ==> Concat(r.sent) == OpenRead(fs, env, path).value && RecvStream(r.sent)
  {
    match OpenRead(fs, env, path)
    case None => Reply([], false)
    case Some(content) => Reply(Chunks(content, BUF_SIZE), true)
  }

  /** The pieces fwrite is called with: the initial part, if any, then
      every later buffer. */
  function Pieces(initial: Option<Bytes>, more: seq<Bytes>): (ps: seq<Bytes>)
    ensures Concat(ps) == (if initial.Some? then initial.value else []) + Concat(more)
  {
    if initial.Some? then
      ConcatAppend([initial.value], more);
      [initial.value] + more
    else
      assert [] + more == more;
      more
  }

  /** handle_ufile (Spdf.c:139-191): make the directories, open
      `<dir>/<name>` with "wb", write the initial part and then each later
      buffer, stopping at the first short write. */
  function StoreFile(fs: Fs, env: Env, filename: Bytes, dest: Bytes, initial: Option<Bytes>, more: seq<Bytes>): (r: Fs)
    requires |dest| > 0
    ensures !Lands(fs, env, dest, filename) ==> r.files == fs.files
    ensures Lands(fs, env, dest, filename) ==>
              JoinPath(dest, filename) in r.files
              && r.files[JoinPath(dest, filename)] <= (if initial.Some? then initial.value else []) + Concat(more)
    ensures Lands(fs, env, dest, filename) && WritesComplete(env, Pieces(initial, more), 0) ==>
              r.files[JoinPath(dest, filename)] == (if initial.Some? then initial.value else []) + Concat(more)
    ensures forall p :: p in fs.files && p != JoinPath(dest, filename) ==> p in r.files && r.files[p] == fs.files[p]
    ensures Valid(fs) ==> Valid(r)
  {
    WriteFileIn(fs, env, dest, filename, WriteStopping(env, Pieces(initial, more), 0))
  }

  /** The outcome of one connection. */
  datatype Outcome = Outcome(fs: Fs, reply: Reply)

  /** handle_client (Spdf.c:79-128) over the buffers recv returns. Only the
      first one is parsed; an upload goes on to read the rest as file data. */
  function HandleClient(fs: Fs, env: Env, chunks: seq<Bytes>): (r: Outcome)
    requires RecvStream(chunks)
    requires |chunks| > 0 ==> |chunks[0]| < BUF_SIZE
    ensures |chunks| == 0 ==> r == Outcome(fs, Reply([], false))
    ensures r.reply.sent != [] ==> |chunks| > 0 && ParseRequest(CString(chunks[0])).Fetch?
    ensures |chunks| > 0 && ParseRequest(CString(chunks[0])).Fetch? ==>
              r.fs == fs && r.reply == FetchReply(fs, env, ParseRequest(CString(chunks[0])).path)
    ensures |chunks| > 0 && ParseRequest(CString(chunks[0])).Delete? ==>
              r.fs == Remove(fs, ParseRequest(CString(chunks[0])).path).fs && r.reply == Reply([], false)
    ensures |chunks| > 0 && ParseRequest(CString(chunks[0])).Store? ==>
              var q := ParseRequest(CString(chunks[0]));
              r.fs == StoreFile(fs, env, q.filename, q.dest, q.initial, chunks[1..]) && r.reply == Reply([], false)
    ensures |chunks| > 0 && ParseRequest(CString(chunks[0])).Invalid? ==> r == Outcome(fs, Reply([], false))
    ensures Valid(fs) ==> Valid(r.fs)
  {
    if |chunks| == 0 then Outcome(fs, Reply([], false))
    else
      match ParseRequest(CString(chunks[0]))
      case Fetch(path) => Outcome(fs, FetchReply(fs, env, path))
      case Delete(path) => Outcome(Remove(fs, path).fs, Reply([], false))
      case Store(filename, dest, initial) => Outcome(StoreFile(fs, env, filename, dest, initial, chunks[1..]), Reply([], false))
      case Invalid => Outcome(fs, Reply([], false))
  }

  /** An upload header whose bytes are all in the first buffer. */
  function StoreHeader(filename: Bytes, dest: Bytes, content: Bytes): Bytes
  {
    filename + "\n" + dest + "\n" + content
  }

  /** A well-formed upload connection stores the file as handle_ufile
      would. */
  lemma UploadConnectionStores(fs: Fs, env: Env, filename: Bytes, dest: Bytes, content: Bytes, chunks: seq<Bytes>)
    requires |filename| > 0 && NoneIn(filename, NEWLINE) && NUL !in filename
    requires |dest| > 0 && NoneIn(dest, NEWLINE) && NUL !in dest
    requires NUL !in content
    requires !("dfile " <= filename) && !("rmfile " <= filename)
    requires RecvStream(chunks) && |chunks| > 0 && |chunks[0]| < BUF_SIZE
    requires chunks[0] == StoreHeader(filename, dest, content)
    ensures HandleClient(fs, env, chunks).fs
            == StoreFile(fs, env, filename, dest, if content == [] then None else Some(content), chunks[1..])
  {
    StoreRequestRoundTrip(filename, dest, content);
  }

  /** Upload, then download over a second connection: the reply carries
      exactly the bytes uploaded, when the node's writes were complete. */
  lemma UploadThenDownload(fs: Fs, env: Env, filename: Bytes, dest: Bytes, content: Bytes, chunks: seq<Bytes>, request: Bytes)
    requires |filename| > 0 && NoneIn(filename, NEWLINE) && NUL !in filename
    requires |dest| > 0 && NoneIn(dest, NEWLINE) && NUL !in dest
    requires NUL !in content
    requires !("dfile " <= filename) && !("rmfile " <= filename)
    requires RecvStream(chunks) && |chunks| > 0 && |chunks[0]| < BUF_SIZE
    requires chunks[0] == StoreHeader(filename, dest, content)
    requires request == "dfile " + JoinPath(dest, filename) && |request| < BUF_SIZE
    ensures RecvStream([request])
    ensures Lands(fs, env, dest, filename)
            && WritesComplete(env, Pieces(if content == [] then None else Some(content), chunks[1..]), 0) ==>
              var reply := HandleClient(HandleClient(fs, env, chunks).fs, env, [request]).reply;
              reply.halfClosed && Concat(reply.sent) == content + Concat(chunks[1..])
  {
    var initial := if content == [] then None else Some(content);
    assert (if initial.Some? then initial.value else []) == content;
    UploadConnectionStores(fs, env, filename, dest, content, chunks);
    StoredFileReads(fs, env, filename, dest, initial, chunks[1..]);
    JoinedNoNewline(dest, filename);
    DownloadConnection(HandleClient(fs, env, chunks).fs, env, JoinPath(dest, filename));
  }

  /** A file stored with every write complete reads back whole. */
  lemma StoredFileReads(fs: Fs, env: Env, filename: Bytes, dest: Bytes, initial: Option<Bytes>, more: seq<Bytes>)
    requires |dest| > 0
    ensures Lands(fs, env, dest, filename) && WritesComplete(env, Pieces(initial, more), 0) ==>
              OpenRead(StoreFile(fs, env, filename, dest, initial, more), env, JoinPath(dest, filename))
              == Some((if initial.Some? then initial.value else []) + Concat(more))
  {
    if Lands(fs, env, dest, filename) {
      var made := MakeDirs(fs, env, dest).fs;
      assert OpenWrite(made, env, JoinPath(dest, filename), true).Some?;
    }
  }

  /** A connection whose first buffer is `dfile <path>` gets the file back
      and changes nothing. */
  lemma DownloadConnection(fs: Fs, env: Env, path: Bytes)
    requires NoneIn(path, NEWLINE) && NUL !in path && |"dfile " + path| < BUF_SIZE
    ensures RecvStream(["dfile " + path])
    ensures HandleClient(fs, env, ["dfile " + path]) == Outcome(fs, FetchReply(fs, env, path))
  {
    var request := "dfile " + path;
    FetchRequestRoundTrip(path, []);
    CStringOfTerminated(request, []);
    assert request + [] == request;
    assert [request][0] == request;
  }

  /** A connection whose first buffer is `rmfile <path>` removes `path`
      (a trailing newline would be part of the name) and sends nothing. */
  lemma DeleteConnection(fs: Fs, env: Env, path: Bytes)
    requires NUL !in path && |"rmfile " + path| < BUF_SIZE
    ensures RecvStream(["rmfile " + path])
    ensures HandleClient(fs, env, ["rmfile " + path]) == Outcome(Remove(fs, path).fs, Reply([], false))
  {
    var request := "rmfile " + path;
    DeleteRequestRoundTrip(path);
    CStringOfTerminated(request, []);
    assert request + [] == request;
    assert [request][0] == request;
  }

  /** A path joined from newline-free, NUL-free parts has neither. */
  lemma JoinedNoNewline(dir: Bytes, name: Bytes)
    requires NoneIn(dir, NEWLINE) && NUL !in dir && NoneIn(name, NEWLINE) && NUL !in name
    ensures NoneIn(JoinPath(dir, name), NEWLINE) && NUL !in JoinPath(dir, name)
  {
    var whole := dir + "/" + name;
    var p := JoinPath(dir, name);
    forall k | 0 <= k < |p| ensures p[k] != '\n' && p[k] != NUL {
      assert p[k] == whole[k];
      if k < |dir| { assert whole[k] == dir[k]; }
      else if k > |dir| { assert whole[k] == name[k - |dir| - 1]; }
    }
  }
}

=== FILE: textnode.dfy ===
/** Stext.c: the text storage node. A connection carries the destination
    directory in its first received buffer, the file name in its second, and
    the file's bytes in every later one. */
module TextNode {
  import opened CStrings
  import opened FileSystem

  /** handle_client (Stext.c:76-130) over the buffers recv returns. Fewer
      than two buffers store nothing. Otherwise the directories are made and
      `<dir>/<name>` is opened with "wb"; every later buffer is written, and a
      short fwrite is not noticed. */
  function HandleClient(fs: Fs, env: Env, chunks: seq<Bytes>): (r: Fs)
    requires RecvStream(chunks)
    requires |chunks| >= 2 ==> |chunks[0]| < BUF_SIZE && |chunks[1]| < BUF_SIZE
    requires |chunks| >= 2 ==> |CString(chunks[0])| > 0
    ensures |chunks| < 2 ==> r == fs
    ensures |chunks| >= 2 ==> r.dirs == MakeDirs(fs, env, CString(chunks[0])).fs.dirs
    ensures |chunks| >= 2 && !Lands(fs, env, CString(chunks[0]), CString(chunks[1])) ==> r.files == fs.files
    ensures |chunks| >= 2 && Lands(fs, env, CString(chunks[0]), CString(chunks[1])) ==>
              var target := JoinPath(CString(chunks[0]), CString(chunks[1]));
              && target in r.files
              && r.files[target] == WriteIgnoring(env, chunks[2..], 0)
              && |r.files[target]| <= |Concat(chunks[2..])|
              && (WritesComplete(env, chunks[2..], 0) ==> r.files[target] == Concat(chunks[2..]))
    ensures |chunks| >= 2 ==>
              forall p :: p in fs.files && p != JoinPath(CString(chunks[0]), CString(chunks[1])) ==>
                p in r.files && r.files[p] == fs.files[p]
    ensures Valid(fs) ==> Valid(r)
  {
    if |chunks| < 2 then fs
    else
      var dest := CString(chunks[0]);
      var filename := CString(chunks[1]);
      WriteFileIn(fs, env, dest, filename, WriteIgnoring(env, chunks[2..], 0))
  }

  /** The three buffers a sender produces for one file: the directory, the
      name, then the bytes in pieces. */
  function Transfer(dest: Bytes, filename: Bytes, body: seq<Bytes>): seq<Bytes>
  {
    [dest, filename] + body
  }

  /** A transfer whose directory and name arrive in buffers of their own
      stores exactly the body's bytes in `<dest>/<filename>`, when the
      directory can be made, the file opens and every write is complete. */
  lemma TransferStores(fs: Fs, env: Env, dest: Bytes, filename: Bytes, body: seq<Bytes>)
    requires 0 < |dest| < BUF_SIZE && NUL !in dest
    requires 0 < |filename| < BUF_SIZE && NUL !in filename
    requires RecvStream(body)
    ensures RecvStream(Transfer(dest, filename, body))
    ensures Lands(fs, env, dest, filename) && WritesComplete(env, body, 0) ==>
              var stored := HandleClient(fs, env, Transfer(dest, filename, body));
              JoinPath(dest, filename) in stored.files && stored.files[JoinPath(dest, filename)] == Concat(body)
  {
    var chunks := Transfer(dest, filename, body);
    assert chunks[0] == dest && chunks[1] == filename && chunks[2..] == body;
  }

  /** Receiving the same transfer twice stores the same as receiving it
      once. */
  lemma TransferIdempotent(fs: Fs, env: Env, chunks: seq<Bytes>)
    requires RecvStream(chunks) && |chunks| >= 2
    requires |chunks[0]| < BUF_SIZE && |chunks[1]| < BUF_SIZE && |CString(chunks[0])| > 0
    ensures MakeDirs(fs, env, CString(chunks[0])).ok ==>
              HandleClient(HandleClient(fs, env, chunks), env, chunks) == HandleClient(fs, env, chunks)
  {
    if MakeDirs(fs, env, CString(chunks[0])).ok {
      WriteFileInIdempotent(fs, env, CString(chunks[0]), CString(chunks[1]), WriteIgnoring(env, chunks[2..], 0));
    }
  }
}
